=== FILE: README.md ===
# PunchClock round timer, modelled in Dafny

PunchClock is a boxing and martial-arts round timer for iPhone and Apple
Watch. A workout preset gives a prepare time, a round time, a rest time and
a number of rounds. The timer walks through the phases
Idle → Prepare → Round → (Rest → Round)* → Finished. It counts down once
per second, plays sounds and haptics on the way, and can be paused,
resumed, stopped, restarted or skipped. When the phone app returns from the
background, it works out from a stored phase-end instant how far the
workout has gone and replays the missed transitions.

This project models that core as pure Dafny functions over immutable
datatypes:

- **`PhaseClock`** holds the transition table shared by both devices, the
  set of reachable states, and a timeline that gives every phase its place
  in seconds from the start of the workout.
- **`TimerManager`** is the phone engine. Every control, `Tick` and `Sync`
  returns the new fields together with the list of sound and haptic cues
  it requests. Wall-clock time is an integer `now` parameter in seconds.
  `CatchUp` is the catch-up loop, written as a recursive function whose
  termination measure is the number of transitions left.
- **`TimerManagerProofs`** states what holds across several calls:
  - catch-up lands exactly where the clock says the workout is;
  - every control keeps the engine consistent;
  - a phase lasts one tick per second plus the tick that ends it;
  - resynchronising twice is the same as once.
- **`WatchTimerManager`** is the watch engine. It uses the same transition
  table, keeps no phase end, and resumes after a skip.
- **`TimerStates` and `WatchTimerStates`** model the phase enum and its raw
  values, the state defaults, and the headings and clock texts. The two
  apps' enums are identical, so both use one `Phase` type.
- **`Presets`, `PresetStores`, `WorkoutHistory` and `Settings`** model:
  - the preset record and the five built-in presets;
  - the preset list and the workout history, as sequence operations;
  - the history statistics;
  - the appearance setting with its fallback.
- **`PresetRows`, `PresetEditor`, `PresetSetup`, `WatchViews` and
  `TimerActivity`** model the arithmetic and text of the screens:
  - totals;
  - `"M:SS"`, `"H:MM:SS"`, `"Hh Mm"` and `"3min"` texts;
  - the minute/second wheels;
  - the editor's minimum durations;
  - the preset chosen for a voice start.
- **`Format`** models Swift's truncating `/` and `%`, `String(format:)`
  with `%d` and `%02d`, and string interpolation. Each formatter has a
  parser, and a proof that the parser reads the text back.

In these places a reader might expect otherwise; the model follows the code:

- `start` always enters Prepare, even with no prepare time.
- A rest of length zero is still entered, for one tick.
- There is no way to add time.
- The phone's skip leaves a paused timer paused. The watch's skip resumes it.
- `TimerState()` starts at round 1, not 0.

The watch app exists in two copies. The model follows
`PunchClockWatch/Services/WatchTimerManager.swift`. The other copy differs
only in its haptic patterns and its HealthKit calls.

The parsers in `Format` accept only the spelling the formatters produce.
A `%d` field has no leading zero. A minute or second field after the first
is below 60. An hour field is positive. So a read-back lemma pins the text
and not just its value.

## Model

| member | source | states |
|---|---|---|
| `Format.Rem` | PunchClock/Models/TimerState.swift:33-34 | Swift's `%` truncates toward zero: the remainder takes the sign of the dividend, stays below the divisor in size, and recomposes the dividend with the truncated quotient |
| `Format.DecimalRoundTrip` | PunchClock/Models/TimerState.swift:24 | `"\(n)"` reads back to `n` for every integer, negative ones included, and the reader accepts no leading zero and no `"-0"`, so it is the one spelling of `n` |
| `Format.SplitComposes` | PunchClock/Views/PresetEditorView.swift:156-165 | splitting a time into `t / 60` and `t % 60` and composing `minutes * 60 + seconds` gives `t` back for every integer; for `t >= 0` the seconds are below 60 |
| `Format.HourMinuteSecond` | PunchClockWatch/Views/WatchTimerView.swift:122-126 | for a non-negative total, the minutes `(t % 3600) / 60` are below 60, and `H*3600 + M*60 + S` reconstructs the total |
| `Format.MinSec` | PunchClock/Models/TimerState.swift:32-36 | `"%d:%02d"` of `t / 60` and `t % 60` has exactly two fields: the minutes without a leading zero and not capped, the seconds two digits below 60; it reads back to `t` for every `t >= 0` |
| `Format.Pad2` | PunchClock/Models/TimerState.swift:35 | `%02d` of a value below 100 is exactly two digits reading back to it |
| `Format.Hms` | PunchClock/Views/PresetEditorView.swift:34-42 | `"H:MM:SS"` exactly when the total reaches an hour, else `"M:SS"`; minute and second fields are below 60 and the text reads back to the total |
| `Format.HoursMinutes` | PunchClock/Models/WorkoutHistory.swift:73-80 | `"Hh Mm"` with a positive hour count (it contains `h`) exactly when the total reaches an hour, else `"Mm"`; the minute count is below 60 and neither count has a leading zero; it reads back to the total's whole minutes, seconds dropped |
| `Format.CompactDuration` | PunchClock/Views/ContentView.swift:184-191 | the text ends in the unit exactly when the seconds are whole minutes; otherwise it is `"M:SS"` with seconds below 60; no leading zero on the minutes; it reads back to the seconds |
| `TimerStates.RawValueRoundTrip` | PunchClock/Models/TimerState.swift:3-9 | each phase is decoded from its raw value (`"idle"` … `"finished"`) and from no other string |
| `TimerStates.PhaseDisplayName` | PunchClock/Models/TimerState.swift:17-30 | the heading decodes back to the phase: `"Ready"`, `"Get Ready"`, `"Rest"` and `"Finished"` for the fixed phases, and in a round `"Round "` followed by the round number in its one spelling; only a round's heading starts with `"Round "` |
| `TimerStates.DisplayNameDeterminesPhase` | PunchClock/Models/TimerState.swift:17-30 | two states with the same heading are in the same phase, and in a round they are in the same round |
| `TimerStates.FormattedTime` | PunchClock/Models/TimerState.swift:32-36 | the countdown as `"M:SS"`, reading back to the seconds remaining |
| `WatchTimerStates.PhaseDisplayName` | PunchClockWatch/Models/WatchTimerState.swift:17-25 | the watch heading decodes back to the phase: `"Ready"`, `"Get Ready"`, `"Fight!"`, `"Rest"` or `"Done"` |
| `WatchTimerStates.HeadingsIdentifyPhase` | PunchClockWatch/Models/WatchTimerState.swift:17-25 | the watch headings (`"Fight!"` for a round, `"Done"` when finished) identify the phase: equal headings iff equal phases |
| `WatchTimerStates.FormattedTime` | PunchClockWatch/Models/WatchTimerState.swift:27-31 | the watch countdown as `"M:SS"`, reading back to the seconds remaining |
| `PhaseClock.NextPhase` | PunchClock/Services/TimerManager.swift:242-292 | the transition table: Prepare goes to Round; a round goes to Finished exactly when it is the last, else to Rest; Rest goes to the next round. A counting phase is one transition closer to Finished. The round number changes only on Rest → Round, by one. Finishing stops the timer. A new counting phase starts at its full length. Idle and Finished do not move |
| `PhaseClock.ValidRoundInRange` | PunchClock/Services/TimerManager.swift:145-163 | in every reachable state the round lies in 1..numberOfRounds and the countdown within the phase's length |
| `PhaseClock.NextPhasePreservesValid` | PunchClock/Services/TimerManager.swift:260-287 | a transition out of a reachable state reaches a reachable state |
| `PhaseClock.TransitionsBounded` | PunchClock/Services/TimerManager.swift:136-176 | from any reachable state at most `2 * numberOfRounds` transitions remain before Finished |
| `PhaseClock.WorkoutEndIsTotal` | PunchClock/Views/ContentView.swift:146-148 | the timeline's end (start of the last round plus its length) equals the views' total `prepare + round*n + rest*max(n-1, 0)` |
| `PhaseClock.PositionWithinWorkout` | PunchClock/Services/TimerManager.swift:42-55 | every reachable state sits on the timeline between the start and the end of the workout, at or before the end of its own phase |
| `PhaseClock.NextPhaseContinuesTimeline` | PunchClock/Services/TimerManager.swift:242-292 | the next phase starts on the timeline exactly where the current one ends |
| `Presets.Make` | PunchClock/Models/Preset.swift:12-28 | the initializer stores its arguments unchanged; not a favourite unless asked |
| `Presets.DefaultPresetsFacts` | PunchClock/Models/Preset.swift:30-76 | five built-ins in the order Boxing, MMA, Muay Thai, BJJ, Quick, with distinct ids, each with at least one round of positive length; Boxing is 10/180/60/12 and BJJ 10/360/60/5 |
| `TimerManager.Start` | PunchClock/Services/TimerManager.swift:42-55 | Prepare in round 1 with the full prepare time even when it is 0, running, elapsed 0, phase end one prepare time ahead; for a well-formed preset this is a reachable state at position 0 with `2 * numberOfRounds` transitions ahead |
| `TimerManager.Pause` | PunchClock/Services/TimerManager.swift:57-63 | stops running and forgets the phase end; nothing else changes |
| `TimerManager.Resume` | PunchClock/Services/TimerManager.swift:65-71 | ignored in Idle and Finished; otherwise running with the phase end `timeRemaining` seconds ahead |
| `TimerManager.Stop` | PunchClock/Services/TimerManager.swift:73-80 | back to Idle, round 1, 0 seconds, not running, with no phase end; the preset and elapsed time are kept |
| `TimerManager.TogglePauseResume` | PunchClock/Services/TimerManager.swift:82-88 | a running timer is paused; a stopped one runs afterwards exactly when its phase counts down |
| `TimerManager.RestartCurrentRound` | PunchClock/Services/TimerManager.swift:90-111 | in Prepare, Round and Rest the countdown returns to the phase's full length, the phase end is recomputed and the timer runs; in Idle and Finished only the phase end is recomputed, from the countdown as it is; without a preset nothing happens; the elapsed time, preset, start instant and mute flag are never touched |
| `TimerManager.SkipPhase` | PunchClock/Services/TimerManager.swift:113-117 | without a preset nothing happens; otherwise exactly one transition from a zeroed countdown, and from Idle or Finished only the countdown is zeroed, with no cue; it never starts a paused timer; a bell rings exactly for a counting phase when not muted; finishing clears the phase end and records the elapsed time, which is otherwise untouched; a newly counting phase ends its countdown from now; preset, start instant and mute flag are kept |
| `TimerManager.SoundCues` | PunchClock/Services/TimerManager.swift:211-240 | silent when muted; a countdown cue exactly at 1..3 seconds in Prepare, Round and Rest; the stick-punch cue exactly at 10 seconds in a round; never a bell; at most one sound, issued once and followed by exactly one impact, medium in a round and light in Prepare and Rest |
| `TimerManager.Transition` | PunchClock/Services/TimerManager.swift:242-292 | from Idle or Finished nothing changes and no cue is given; otherwise the state follows the transition table; bell and heavy haptic exactly for a counting phase when not muted; finishing clears the phase end and records the elapsed time, which is otherwise untouched; otherwise the phase end is the new countdown from now; preset, start instant and mute flag are kept |
| `TimerManager.Tick` | PunchClock/Services/TimerManager.swift:195-209 | cues judged on the countdown before the decrement: a positive countdown issues exactly that value's sound cues and loses one second; a countdown at zero issues only the transition's bell and heavy impact, when not muted, and transitions; elapsed time refreshed from the start instant |
| `TimerManager.CatchUp` | PunchClock/Services/TimerManager.swift:133-180 | one bell per transition taken, whether muted or not, so the loop ends within the transitions left whatever the missed seconds; reaching Finished stops with nothing left and skips the phase-end update |
| `TimerManager.Sync` | PunchClock/Services/TimerManager.swift:121-131 | nothing happens unless running with a phase end and a preset; a phase end still ahead sets the countdown to the seconds left; otherwise only bells, no more than the transitions left |
| `TimerManager.SyncCorrected` | PunchClock/Services/TimerManager.swift:121-131 | as `Sync`, but a phase end reached exactly now counts as zero seconds left |
| `TimerManagerProofs.CatchUpLandsOnTimeline` | PunchClock/Services/TimerManager.swift:133-180 | catching up `m` seconds past a phase end finishes the workout exactly when that point lies beyond its end; otherwise the state is counting and reachable, and its position is exactly `m` seconds past that phase end |
| `TimerManagerProofs.CatchUpBounded` | PunchClock/Services/TimerManager.swift:136-176 | from a reachable state catch-up rings at most `2 * numberOfRounds` bells |
| `TimerManagerProofs.CatchUpExample` | PunchClock/Services/TimerManager.swift:133-180 | for a 10/180/60 × 3 preset (670 s in all), missing 990 s after Prepare's end finishes the workout after six bells |
| `TimerManagerProofs.FreshSatisfiesInv` | PunchClock/Services/TimerManager.swift:7-14 | a new manager is idle at the defaults with no preset and is consistent |
| `TimerManagerProofs.InvLater` | PunchClock/Services/TimerManager.swift:121-131 | consistency survives the clock moving forward |
| `TimerManagerProofs.StartKeepsInv` | PunchClock/Services/TimerManager.swift:42-55 | starting a well-formed preset gives a consistent engine |
| `TimerManagerProofs.PauseKeepsInv` | PunchClock/Services/TimerManager.swift:57-63 | pausing keeps the engine consistent |
| `TimerManagerProofs.ResumeKeepsInv` | PunchClock/Services/TimerManager.swift:65-71 | resuming keeps the engine consistent |
| `TimerManagerProofs.StopKeepsInv` | PunchClock/Services/TimerManager.swift:73-80 | stopping keeps the engine consistent |
| `TimerManagerProofs.ToggleKeepsInv` | PunchClock/Services/TimerManager.swift:82-88 | toggling keeps the engine consistent |
| `TimerManagerProofs.RestartKeepsInv` | PunchClock/Services/TimerManager.swift:90-111 | restarting keeps the engine consistent |
| `TimerManagerProofs.SkipKeepsInv` | PunchClock/Services/TimerManager.swift:113-117 | skipping keeps the engine consistent |
| `TimerManagerProofs.TickKeepsInv` | PunchClock/Services/TimerManager.swift:195-209 | a tick keeps the engine consistent |
| `TimerManagerProofs.SyncKeepsInv` | PunchClock/Services/TimerManager.swift:121-180 | resynchronising keeps the engine consistent, including a countdown within the phase's length |
| `TimerManagerProofs.TicksCountDown` | PunchClock/Services/TimerManager.swift:204-208 | a countdown at `t` takes `t` ticks of one second each without leaving the phase, and the next tick takes the transition, so a phase of length `d` spans `d + 1` ticks |
| `TimerManagerProofs.SyncInStepIsNoop` | PunchClock/Services/TimerManager.swift:121-131 | syncing an engine whose phase end already matches its countdown changes nothing and rings nothing |
| `TimerManagerProofs.SyncIdempotent` | PunchClock/Services/TimerManager.swift:121-180 | after a sync a running engine is in step with the clock, so a second sync at the same instant changes nothing |
| `TimerManagerProofs.SyncAtPhaseEndKeepsStaleCountdown` | PunchClock/Services/TimerManager.swift:124-130 | as written, a sync exactly at the phase end keeps a stale countdown, pushes the phase end later by it, and leaves the timer behind the clock |
| `TimerManagerProofs.SyncAtPhaseEndExample` | PunchClock/Services/TimerManager.swift:124-130 | round 1 of Boxing Standard with 5 stale seconds, synced at its end: the countdown stays 5 and the phase end moves 5 s later; the corrected sync gives 0 |
| `TimerManagerProofs.SyncCorrectedTracksClock` | PunchClock/Services/TimerManager.swift:121-180 | the corrected sync always puts a running timer where the clock says: finished exactly when that lies beyond the workout's end, otherwise counting, in step, at that position |
| `WatchTimerManager.Start` | PunchClockWatch/Services/WatchTimerManager.swift:15-26 | Prepare in round 1 with the full prepare time, running, elapsed 0, with the start haptic; reachable at position 0 for a well-formed preset |
| `WatchTimerManager.Pause` | PunchClockWatch/Services/WatchTimerManager.swift:28-32 | clears `isRunning` and nothing else |
| `WatchTimerManager.Resume` | PunchClockWatch/Services/WatchTimerManager.swift:34-38 | ignored in Idle and Finished, otherwise running |
| `WatchTimerManager.Stop` | PunchClockWatch/Services/WatchTimerManager.swift:40-44 | back to the defaults: Idle, round 1, 0 seconds, not running |
| `WatchTimerManager.TogglePauseResume` | PunchClockWatch/Services/WatchTimerManager.swift:46-52 | a running timer is paused; a stopped one runs afterwards exactly when its phase counts down |
| `WatchTimerManager.Haptics` | PunchClockWatch/Services/WatchTimerManager.swift:90-95 | a single click exactly when the countdown reads 1..3, in any phase, with no mute; nothing else |
| `WatchTimerManager.Transition` | PunchClockWatch/Services/WatchTimerManager.swift:97-130 | from Idle or Finished nothing changes and no haptic plays; otherwise the phone's transition table, a notification haptic for each counting phase, plus the success haptic and the elapsed time on finishing; the elapsed time is otherwise untouched, and preset and start instant are kept |
| `WatchTimerManager.SkipPhase` | PunchClockWatch/Services/WatchTimerManager.swift:54-62 | without a preset nothing happens; otherwise one transition from a zeroed countdown, and from Idle or Finished only the countdown is zeroed; afterwards the timer runs whenever the new phase counts down and stops on finishing; a notification haptic exactly for a counting phase; the elapsed time is recorded on finishing and otherwise untouched; preset and start instant are kept |
| `WatchTimerManager.Tick` | PunchClockWatch/Services/WatchTimerManager.swift:74-88 | haptics judged before the decrement: a positive countdown gives exactly that value's click and loses one second; a countdown at zero gives only the transition's notification, plus success on finishing, and nothing from Idle or Finished, and transitions |
| `WatchTimerManager.WatchControlsKeepInv` | PunchClockWatch/Services/WatchTimerManager.swift:15-52 | start, pause, resume, stop and toggle keep the watch engine consistent |
| `WatchTimerManager.WatchSkipKeepsInv` | PunchClockWatch/Services/WatchTimerManager.swift:54-62 | skipping keeps the watch engine consistent |
| `WatchTimerManager.WatchTickKeepsInv` | PunchClockWatch/Services/WatchTimerManager.swift:74-88 | a tick keeps the watch engine consistent |
| `WatchTimerManager.WatchSkipRunsIffCounting` | PunchClockWatch/Services/WatchTimerManager.swift:54-62 | after a skip the watch runs exactly when the new phase counts down |
| `Seqs.Filter` | PunchClock/Models/PresetStore.swift:43-46 | `removeAll(where:)`: every survivor was in the list and is kept; every element that is kept survives |
| `Seqs.FilterConcat` | PunchClock/Models/PresetStore.swift:43-46 | removal distributes over concatenation, so survivors keep their order |
| `Seqs.FirstIndex` | PunchClock/Models/PresetStore.swift:36-41 | `firstIndex(where:)`: a matching offset with no match before it, or none when nothing matches |
| `Seqs.Survivors` | PunchClock/Models/PresetStore.swift:48-51 | the offsets surviving `remove(atOffsets:)` are exactly those not removed, in increasing order, and their count is the length minus the removed ones |
| `Seqs.RemoveOffsets` | PunchClock/Models/PresetStore.swift:48-51 | `remove(atOffsets:)` keeps the elements at the surviving offsets, in order |
| `PresetStores.Load` | PunchClock/Models/PresetStore.swift:14-23 | a stored list is used as it is; without one the five built-ins are used and written back |
| `PresetStores.LoadIsStable` | PunchClock/Models/PresetStore.swift:14-23 | loading again from what a load stored gives the same list; the list is empty only if an empty list was stored |
| `PresetStores.AddPreset` | PunchClock/Models/PresetStore.swift:31-34 | appended at the end, one more preset, the old ones unchanged before it |
| `PresetStores.UpdatePreset` | PunchClock/Models/PresetStore.swift:36-41 | the first preset with the same id is replaced; with none nothing changes; the length never changes |
| `PresetStores.UpdateThenFind` | PunchClock/Models/PresetStore.swift:36-41 | after updating, the new preset sits at or before any listed preset with its id, with everything before it untouched |
| `PresetStores.DeletePreset` | PunchClock/Models/PresetStore.swift:43-46 | no preset with that id survives; every preset with another id does; order and repetitions are stated by `DeletePiecewise` |
| `PresetStores.DeletePiecewise` | PunchClock/Models/PresetStore.swift:43-46 | deletion is fixed preset by preset: nothing from nothing, a single preset kept exactly when its id differs, and a concatenation deleted piece by piece, so survivors keep their order and repetitions |
| `PresetStores.DeleteUndoesAdd` | PunchClock/Models/PresetStore.swift:31-46 | deleting a just-added preset with a fresh id restores the list |
| `PresetStores.DeleteListedDropsOne` | PunchClock/Models/PresetStore.swift:43-46 | with distinct ids, deleting a listed preset removes exactly one |
| `PresetStores.DeleteFirstDefault` | PunchClockTests/PunchClockTests.swift:104-112 | deleting the first built-in from a fresh store leaves four |
| `PresetStores.DeletePresets` | PunchClock/Models/PresetStore.swift:48-51 | exactly the given offsets go: the length drops by their number, and the others remain in order |
| `WorkoutHistory.RecordFormattedTime` | PunchClock/Models/WorkoutHistory.swift:25-29 | `"M:SS"` with uncapped minutes, reading back to the duration |
| `WorkoutHistory.WorkoutRecord.IsComplete` | PunchClock/Models/WorkoutHistory.swift:21-23 | a record is complete exactly when its completed rounds reach its planned rounds; a single comparison with no further contract |
| `WorkoutHistory.AddRecord` | PunchClock/Models/WorkoutHistory.swift:48-51 | the new record first, the old ones after it in order |
| `WorkoutHistory.ClearHistory` | PunchClock/Models/WorkoutHistory.swift:53-56 | nothing is left |
| `WorkoutHistory.ClearResetsStatistics` | PunchClock/Models/WorkoutHistory.swift:53-80 | after clearing, the workout count and the training time are 0 and the summary reads `"0m"` |
| `WorkoutHistory.DeleteRecord` | PunchClock/Models/WorkoutHistory.swift:58-61 | no record with that id survives; every record with another id does; order and repetitions are stated by `DeleteRecordPiecewise` |
| `WorkoutHistory.DeleteRecordPiecewise` | PunchClock/Models/WorkoutHistory.swift:58-61 | deletion is fixed record by record: nothing from nothing, a single record kept exactly when its id differs, and a concatenation deleted piece by piece, so survivors keep their order and repetitions |
| `WorkoutHistory.DeleteUndoesAdd` | PunchClock/Models/WorkoutHistory.swift:48-61 | deleting a just-added record with a fresh id restores the history |
| `WorkoutHistory.TotalWorkouts` | PunchClock/Models/WorkoutHistory.swift:65-67 | the number of records; `TotalAfterAdd` and `ClearResetsStatistics` state how adding and clearing move it |
| `WorkoutHistory.TotalTrainingTime` | PunchClock/Models/WorkoutHistory.swift:69-71 | the durations summed left to right as `reduce(0)` does; `TotalOfConcat`, `TotalAfterAdd` and `TotalAfterDelete` state how it adds up |
| `WorkoutHistory.TotalOfConcat` | PunchClock/Models/WorkoutHistory.swift:69-71 | the training time of two stretches of history adds up |
| `WorkoutHistory.TotalAfterAdd` | PunchClock/Models/WorkoutHistory.swift:65-71 | adding a record adds one workout and its duration to the totals |
| `WorkoutHistory.TotalAfterDelete` | PunchClock/Models/WorkoutHistory.swift:58-71 | deleting takes off exactly the durations of the records with that id |
| `WorkoutHistory.TotalNonNegative` | PunchClock/Models/WorkoutHistory.swift:69-71 | with no negative durations the total is not negative |
| `WorkoutHistory.FormattedTotalTime` | PunchClock/Models/WorkoutHistory.swift:73-80 | `"Hh Mm"` with a positive hour count exactly from an hour of training on, else `"Mm"`; minutes below 60; it reads back to the total's whole minutes |
| `Settings.RawValueRoundTrip` | PunchClock/Models/SettingsStore.swift:4-8 | `"System"`, `"Light"`, `"Dark"` each decode to their own mode and no other string does |
| `Settings.ColorSchemeOf` | PunchClock/Models/SettingsStore.swift:9-15 | System gives no scheme, Light the light scheme and Dark the dark one |
| `Settings.Appearance` | PunchClock/Models/SettingsStore.swift:25-26 | a stored string naming no mode reads as System; otherwise the mode whose raw value is stored |
| `Settings.SetAppearance` | PunchClock/Models/SettingsStore.swift:27-30 | after setting a mode the getter returns it; sound and quotes are untouched |
| `Settings.DefaultsFacts` | PunchClock/Models/SettingsStore.swift:21-23 | sound on, quotes off and the appearance follows the system by default |
| `TimerActivity.FormattedTime` | PunchClock/Services/TimerActivityAttributes.swift:19-23 | `"M:SS"` reading back to the seconds, and the same text as the timer state's for the same countdown |
| `PresetRows.RowTotal` | PunchClock/Views/ContentView.swift:146-148 | for a well-formed preset, the end of the workout timeline; one round adds no rest |
| `PresetRows.RowTotalExample` | PunchClockTests/PunchClockTests.swift:116-131 | 10 s prepare, three 3:00 rounds and 1:00 rests total 670 s |
| `PresetRows.RowFormattedTotal` | PunchClock/Views/ContentView.swift:150-157 | `"Hh Mm"` with a positive hour count exactly from an hour on, else `"Mm"`; minutes below 60; it reads back to the total's whole minutes, seconds dropped |
| `PresetRows.RowFormatTime` | PunchClock/Views/ContentView.swift:184-191 | ends in `"min"` exactly for whole minutes, else `"M:SS"` with seconds below 60; reads back to the seconds |
| `PresetRows.SiriPick` | PunchClock/Views/ContentView.swift:27-33 | the first preset with the requested name, else the first preset, else none |
| `PresetRows.SiriStart` | PunchClock/Views/ContentView.swift:27-33 | a voice start starts a listed preset in Prepare, or does nothing when there are none |
| `PresetEditor.NewFormFacts` | PunchClock/Views/PresetEditorView.swift:9-16 | a new form is 0:10 / 3:00 / 1:00 × 12, the Boxing Standard timing, and cannot be saved without a name |
| `PresetEditor.CanSave` | PunchClock/Views/PresetEditorView.swift:146 | the save button is enabled exactly when the name is not empty; `NewFormFacts` states that a new form cannot be saved |
| `PresetEditor.FormTotal` | PunchClock/Views/PresetEditorView.swift:30-32 | for well-formed times, the end of the workout timeline, the same formula as the preset row |
| `PresetEditor.FormattedTotalTime` | PunchClock/Views/PresetEditorView.swift:34-42 | `"H:MM:SS"` exactly from an hour on, else `"M:SS"`, reading back to the total |
| `PresetEditor.OnAppear` | PunchClock/Views/PresetEditorView.swift:155-166 | editing copies name and rounds and splits each time into minutes and seconds that compose back to it; a new preset keeps the form |
| `PresetEditor.Save` | PunchClock/Views/PresetEditorView.swift:170-182 | times raised to at least 5 / 10 / 5 s and otherwise kept; rounds unchanged; the edited preset's id, else a fresh one; not a favourite |
| `PresetEditor.EditSaveRoundTrip` | PunchClock/Views/PresetEditorView.swift:155-182 | opening a preset that meets the minimums and saving it untouched gives it back, minus any favourite mark |
| `PresetEditor.SavedIsWellFormed` | PunchClock/Views/PresetEditorView.swift:170-182 | a saved preset with at least one round can be started: no negative time and a positive round |
| `PresetSetup.Init` | PunchClock/Views/PresetSetupView.swift:21-27 | each time split into `t / 60` and `t % 60`, composing back to it |
| `PresetSetup.Adjusted` | PunchClock/Views/PresetSetupView.swift:115-122 | the original id and name with the wheels' times and rounds, no minimums, not a favourite |
| `PresetSetup.UntouchedAdjustment` | PunchClock/Views/PresetSetupView.swift:115-122 | starting without touching the wheels starts the preset itself, minus any favourite mark |
| `PresetSetup.TotalTimeFormatted` | PunchClock/Views/PresetSetupView.swift:149-163 | the views' total as `"H:MM:SS"` exactly from an hour on, else `"M:SS"`, reading back to it |
| `PresetSetup.UntouchedTotal` | PunchClock/Views/PresetSetupView.swift:149-163 | untouched, the sheet shows the length of the preset's whole timeline |
| `WatchViews.FormattedTotalTime` | PunchClockWatch/Views/WatchTimerView.swift:121-130 | elapsed time as `"H:MM:SS"` exactly from an hour on, else `"M:SS"`, reading back to it |
| `WatchViews.FormatTime` | PunchClockWatch/Views/PresetListView.swift:33-40 | ends in `"m"` exactly for whole minutes, else `"M:SS"` with seconds below 60; reads back to the seconds |
| `WatchViews.FormatTimeZero` | PunchClockWatch/Views/PresetListView.swift:36-38 | zero seconds shows as `"0m"` |

## Left out

- Timer scheduling, the run loop, background tasks, the foreground observer and the live-activity start, update and end calls are platform I/O. `Tick` and `Sync` are explicit calls instead.
- The timer invalidation these calls perform is also not modelled.
- The sound, haptic and notification managers are not modelled. Cues are returned as abstract events in the order they are requested.
- HealthKit (workout sessions, calorie arithmetic in floating point) is a foreign framework.
- Phone–watch connectivity (WatchConnectivity messaging and JSON) is not modelled.
- Persistence is reduced to "a stored, decodable list is present or not". UserDefaults and the JSON encoding are not modelled.
- Saving after each store change is not modelled separately. It stores exactly the list the operation returns.
- Identifiers are natural numbers supplied by the caller, because the random `UUID()` default cannot be modelled. The built-in presets get the placeholders 1 to 5.
- Dates are whole-second integers. `thisWeekWorkouts` and `formattedDate` depend on the calendar and the date formatter and are left out.
- The `Double` to `Int` truncation of a time interval is replaced by exact whole seconds.
- The watch preset's name and id are never read by the watch timer, so the watch engine keeps only the four timing fields.
- `WorkoutRecord(presetName:…)` is not modelled. It only fills the fields with a fresh id and the current date; the record is taken as given.
- The SwiftUI layout, widget views, quotes, Siri intent glue, app entry points and UI tests are not modelled.
- Swift's `Int` is 64 bits wide and traps on overflow. The totals, the sums and `minutes * 60` are unbounded `int` here. The pickers (1 to 99 rounds, times up to 10:55) keep every value far from that limit.
- Swift compares `String`s by canonical equivalence. Here strings compare character by character. This matters for `PresetRows.SiriPick`, which matches a preset by name, and for the raw-value decoders.
- `Format.MinSec`: the text for a negative time is computed with Swift's truncating division, but its contents are only characterised for `t >= 0`.
- `Format.Hms`: the contents are only characterised for non-negative totals.
- `Format.HoursMinutes`: the contents are only characterised for non-negative totals.
- `Format.CompactDuration`: the contents are only characterised for non-negative times.
- `TimerManager.Sync`: its contract bounds the bells and the frame. Where a running timer lands is stated by `TimerManagerProofs.CatchUpLandsOnTimeline` and `TimerManagerProofs.SyncIdempotent` instead.

## Findings

| source | as written | input that shows it | evidently intended | confidence | as-written member | corrected member |
|---|---|---|---|---|---|---|
| PunchClock/Services/TimerManager.swift:124-130 | `if remaining > 0 { … } else { catchUpPhases(missedSeconds: -remaining) }`. At `remaining == 0` the catch-up gets 0 seconds and its loop does not run. It then sets the phase end to now + the stored countdown, which is stale if the app was suspended. | A running round with 5 s left on the countdown, last ticked before suspension, whose phase end is exactly now. After syncing, the countdown is still 5 and the phase end is 5 s later, so the workout runs 5 s long. | A phase end reached exactly now leaves 0 seconds, so the next tick takes the transition (`remaining >= 0`). | medium, not executed | `TimerManagerProofs.SyncAtPhaseEndKeepsStaleCountdown` | `TimerManagerProofs.SyncCorrectedTracksClock` |

=== FILE: content_view.dfy ===
/**
  The computations of the phone's main screen (`ContentView`): a preset
  row's total time and its summaries, and the choice of preset when a
  workout is started by voice.
*/
module PresetRows {
  import opened Wrappers
  import opened Format
  import opened Seqs
  import opened PhaseClock
  import opened Presets
  import TimerManager

  /**
    `PresetRow.totalWorkoutTime`: for a well-formed preset, where the
    workout timeline ends; a single round adds no rest.
  */
  function RowTotal(p: Preset): (t: int)
    ensures WellFormed(p.Timing()) ==> t == WorkoutEnd(p.Timing())
    ensures p.numberOfRounds <= 1 ==> t == p.prepareTime + p.roundTime * p.numberOfRounds
  {
    if WellFormed(p.Timing()) then
      WorkoutEndIsTotal(p.Timing());
      TotalWorkoutTime(p.Timing())
    else TotalWorkoutTime(p.Timing())
  }

  /** Three rounds of 3:00 with 1:00 rests after a 10-second prepare take 670 seconds. */
  lemma RowTotalExample()
    ensures RowTotal(Make(0, "Test", 10, 180, 60, 3)) == 670
  {
  }

  /** `PresetRow.formattedTotalTime`: `"Hh Mm"` or `"Mm"`, seconds dropped. */
  function RowFormattedTotal(p: Preset): (text: string)
    ensures RowTotal(p) >= 0 ==> ParseHoursMinutes(text) == Some(RowTotal(p) / 60)
    ensures RowTotal(p) >= 0 ==> ('h' in text <==> RowTotal(p) >= 3600)
  {
    HoursMinutes(RowTotal(p))
  }

  /** `PresetRow.formatTime`: `"3min"` for whole minutes, else `"2:30"`. */
  function RowFormatTime(seconds: int): (text: string)
    ensures seconds >= 0 ==> ParseCompactDuration(text, "min") == Some(seconds)
    ensures seconds >= 0 ==> (EndsWith(text, "min") <==> seconds % 60 == 0)
  {
    CompactDuration(seconds, "min")
  }

  /**
    The voice start: the first preset with the requested name, else the
    first preset, else none.
  */
  function SiriPick(name: Option<string>, ps: seq<Preset>): (r: Option<Preset>)
    ensures ps == [] ==> r.None?
    ensures name.Some? ==> forall i :: (0 <= i < |ps| && ps[i].name == name.value
      && (forall j :: 0 <= j < i ==> ps[j].name != name.value)) ==> r == Some(ps[i])
    ensures |ps| > 0 && (name.None? || forall i :: 0 <= i < |ps| ==> ps[i].name != name.value) ==>
      r == Some(ps[0])
  {
    var byName :=
      match name
      case None => None
      case Some(n) => FirstIndex(ps, (p: Preset) => p.name == n);
    if byName.Some? then Some(ps[byName.value])
    else if |ps| > 0 then Some(ps[0])
    else None
  }

  /** The voice start as a whole: the picked preset is started, or nothing happens. */
  function SiriStart(e: TimerManager.Engine, name: Option<string>, ps: seq<Preset>, now: int): (r: TimerManager.Engine)
    ensures ps == [] ==> r == e
    ensures ps != [] ==> r.preset.Some? && r.preset.value in ps && r.state.phase == TimerStates.Prepare
  {
    match SiriPick(name, ps)
    case None => e
    case Some(p) => TimerManager.Start(e, p, now)
  }
}

=== FILE: format.dfy ===
/**
  Integer arithmetic and text formatting as the Swift code uses them.

  Swift's `Int` division `/` truncates toward zero and `%` takes the sign of
  the dividend; Dafny's operators are Euclidean, so both are written out here
  (`Quot`, `Rem`). `Decimal` is string interpolation `"\(n)"` and the
  `%d` conversion, `Pad2` is the `%02d` conversion. Every formatter built on
  them has a parser as its partner, and the round trips are proved below.
*/
module Format {
  import opened Wrappers

  // ---------------------------------------------------------------------------
  // Swift integer division
  // ---------------------------------------------------------------------------

  /** Swift's `a / b` for a positive divisor: the quotient truncated toward zero. */
  function Quot(a: int, b: int): (q: int)
    requires b > 0
  {
    if a >= 0 then a / b else -((-a) / b)
  }

  /** Swift's `a % b` for a positive divisor: the remainder left by `Quot`. */
  function Rem(a: int, b: int): (r: int)
    requires b > 0
    ensures Quot(a, b) * b + r == a
    ensures a >= 0 ==> 0 <= r < b
    ensures a < 0 ==> -b < r <= 0
  {
    if a >= 0 then a % b else -((-a) % b)
  }

  // ---------------------------------------------------------------------------
  // Decimal digits
  // ---------------------------------------------------------------------------

  predicate IsDigit(c: char) {
    '0' <= c <= '9'
  }

  predicate AllDigits(s: string) {
    forall i :: 0 <= i < |s| ==> IsDigit(s[i])
  }

  /** A non-empty run of decimal digits. */
  predicate IsNumeral(s: string) {
    |s| >= 1 && AllDigits(s)
  }

  /** A numeral as `%d` spells it: no leading zero unless it is `"0"` itself. */
  predicate Canonical(s: string) {
    IsNumeral(s) && (|s| > 1 ==> s[0] != '0')
  }

  function DigitChar(d: int): (c: char)
    requires 0 <= d < 10
    ensures IsDigit(c) && c as int - '0' as int == d
  {
    ('0' as int + d) as char
  }

  /** The value of a string of digits read in base ten. */
  function ParseNat(s: string): nat
    requires AllDigits(s)
  {
    if |s| == 0 then 0
    else ParseNat(s[..|s| - 1]) * 10 + (s[|s| - 1] as int - '0' as int)
  }

  /** The digits of `n`, most significant first, with no leading zero. */
  function NatDigits(n: nat): (s: string)
    ensures Canonical(s)
    decreases n
  {
    if n < 10 then [DigitChar(n)] else NatDigits(n / 10) + [DigitChar(n % 10)]
  }

  lemma {:induction false} ParseNatDigits(n: nat)
    ensures ParseNat(NatDigits(n)) == n
    decreases n
  {
    if n >= 10 {
      var s := NatDigits(n);
      assert s[..|s| - 1] == NatDigits(n / 10);
      ParseNatDigits(n / 10);
    }
  }

  /** `"\(n)"` and `String(format: "%d", n)`: a minus sign for negatives. */
  function Decimal(n: int): (s: string)
    ensures |s| >= 1
    ensures n >= 0 ==> Canonical(s)
  {
    if n < 0 then "-" + NatDigits(-n) else NatDigits(n)
  }

  /**
    The characters of `s` from position `k` on, which is `s[k..]`; spelled
    out one character at a time so that unfolding it stays local to `s`.
  */
  function From(s: string, k: nat): (r: string)
    requires k <= |s|
    ensures |r| == |s| - k
    decreases |s| - k
  {
    if k == |s| then [] else [s[k]] + From(s, k + 1)
  }

  lemma {:induction false} FromIsSuffix(s: string, k: nat)
    requires k <= |s|
    ensures From(s, k) == s[k..]
    decreases |s| - k
  {
    if k < |s| {
      FromIsSuffix(s, k + 1);
      assert s[k..] == [s[k]] + s[k + 1..];
    }
  }

  /**
    Reads back an optionally signed decimal numeral in the one spelling
    `"\(n)"` gives it: no leading zero, and no `"-0"`.
  */
  function ParseInt(s: string): Option<int> {
    if |s| >= 2 && s[0] == '-' && Canonical(From(s, 1)) && ParseNat(From(s, 1)) > 0 then Some(0 - ParseNat(From(s, 1)))
    else if Canonical(s) then Some(ParseNat(s))
    else None
  }

  lemma {:induction false} DecimalRoundTrip(n: int)
    ensures ParseInt(Decimal(n)) == Some(n)
  {
    var s := Decimal(n);
    if n < 0 {
      FromIsSuffix(s, 1);
      assert From(s, 1) == NatDigits(-n);
      ParseNatDigits(-n);
      assert Canonical(From(s, 1)) && ParseNat(From(s, 1)) == -n;
    } else {
      ParseNatDigits(n);
      assert IsDigit(s[0]);
      assert Canonical(s) && ParseNat(s) == n;
    }
  }

  /** `String(format: "%02d", n)`: zero-padded to two characters. */
  function Pad2(n: int): (s: string)
    ensures 0 <= n < 100 ==> |s| == 2 && AllDigits(s) && ParseNat(s) == n
  {
    if 0 <= n < 10 then
      OneDigitPadded(n);
      "0" + Decimal(n)
    else if n < 10 then Decimal(n)
    else if n < 100 then
      TwoDigitNumeral(n);
      Decimal(n)
    else Decimal(n)
  }

  lemma {:induction false} OneDigitPadded(n: int)
    requires 0 <= n < 10
    ensures var s := "0" + Decimal(n); |s| == 2 && AllDigits(s) && ParseNat(s) == n
  {
    var s := "0" + Decimal(n);
    assert s[..|s| - 1] == "0";
    assert ParseNat("0") == 0 by {
      assert "0"[..0] == "";
    }
    assert s[1] == DigitChar(n);
  }

  lemma {:induction false} TwoDigitNumeral(n: int)
    requires 10 <= n < 100
    ensures |Decimal(n)| == 2 && ParseNat(Decimal(n)) == n
  {
    ParseNatDigits(n);
    assert Decimal(n) == NatDigits(n / 10) + [DigitChar(n % 10)];
  }

  // ---------------------------------------------------------------------------
  // Splitting on a separator
  // ---------------------------------------------------------------------------

  /** The position of the first `c` in `s`, or `|s|` when there is none. */
  function IndexOf(s: string, c: char): (i: nat)
    ensures i <= |s|
    ensures i < |s| ==> s[i] == c
  {
    IndexFrom(s, c, 0)
  }

  /** The position of the first `c` in `s` at or after `k`, or `|s|`. */
  function IndexFrom(s: string, c: char, k: nat): (i: nat)
    requires k <= |s|
    ensures k <= i <= |s|
    ensures i < |s| ==> s[i] == c
    decreases |s| - k
  {
    if k == |s| then |s| else if s[k] == c then k else IndexFrom(s, c, k + 1)
  }

  /** The colon-separated fields of `s`, in order. */
  function SplitColons(s: string): (fields: seq<string>)
    ensures |fields| >= 1
    decreases |s|
  {
    var i := IndexOf(s, ':');
    if i < |s| then [s[..i]] + SplitColons(From(s, i + 1)) else [s]
  }

  /** In a string without `c`, the first `c` after it is found where it was put. */
  lemma {:induction false} IndexOfAfter(a: string, c: char, b: string)
    requires IndexOf(a, c) == |a|
    ensures IndexOf(a + [c] + b, c) == |a|
  {
    IndexFromAfter(a, c, b, 0);
  }

  lemma {:induction false} IndexFromAfter(a: string, c: char, b: string, k: nat)
    requires k <= |a| && IndexFrom(a, c, k) == |a|
    ensures IndexFrom(a + [c] + b, c, k) == |a|
    decreases |a| - k
  {
    var s := a + [c] + b;
    if k == |a| {
      assert s[k] == c;
    } else {
      assert s[k] == a[k];
      IndexFromAfter(a, c, b, k + 1);
    }
  }

  lemma {:induction false} SplitAfterField(a: string, b: string)
    requires IndexOf(a, ':') == |a|
    ensures SplitColons(a + ":" + b) == [a] + SplitColons(b)
  {
    var s := a + ":" + b;
    IndexOfAfter(a, ':', b);
    assert s[..|a|] == a;
    FromIsSuffix(s, |a| + 1);
    assert s[|a| + 1..] == b;
  }

  /** A string of digits holds no non-digit separator. */
  lemma {:induction false} DigitsExclude(s: string, c: char)
    requires AllDigits(s) && !IsDigit(c)
    ensures IndexOf(s, c) == |s|
  {
    DigitsExcludeFrom(s, c, 0);
  }

  lemma {:induction false} DigitsExcludeFrom(s: string, c: char, k: nat)
    requires AllDigits(s) && !IsDigit(c) && k <= |s|
    ensures IndexFrom(s, c, k) == |s|
    decreases |s| - k
  {
    if k < |s| {
      assert IsDigit(s[k]);
      DigitsExcludeFrom(s, c, k + 1);
    }
  }

  /** The same, stated with membership. */
  lemma {:induction false} DigitsLack(s: string, c: char)
    requires AllDigits(s) && !IsDigit(c)
    ensures c !in s
  {
    forall i | 0 <= i < |s|
      ensures s[i] != c
    {
      assert IsDigit(s[i]);
    }
  }

  // ---------------------------------------------------------------------------
  // Arithmetic of the minute and hour split
  // ---------------------------------------------------------------------------

  /** Euclidean quotient and remainder are determined by `n == q * b + r`. */
  lemma {:induction false} DivModUnique(n: int, b: int, q: int, r: int)
    requires b > 0 && 0 <= r < b && n == q * b + r
    ensures n / b == q && n % b == r
  {
    var q' := n / b;
    var r' := n % b;
    assert q' * b + r' == q * b + r;
    var d := q - q';
    assert d * b == r' - r by {
      assert d * b == q * b - q' * b;
    }
  }

  /** Splits a non-negative total into hours, minutes below 60 and seconds below 60. */
  lemma {:induction false} HourMinuteSecond(t: int)
    requires t >= 0
    ensures 0 <= (t % 3600) / 60 < 60 && 0 <= t % 60 < 60
    ensures (t / 3600) * 3600 + ((t % 3600) / 60) * 60 + t % 60 == t
    ensures (t / 3600) * 60 + (t % 3600) / 60 == t / 60
    ensures t / 3600 > 0 <==> t >= 3600
    ensures t / 3600 <= 0 ==> (t % 3600) / 60 == t / 60
  {
    var h := t / 3600;
    var r := t % 3600;
    var m := r / 60;
    var s := r % 60;
    assert t == h * 3600 + r;
    assert r == m * 60 + s;
    assert t == (h * 60 + m) * 60 + s;
    DivModUnique(t, 60, h * 60 + m, s);
    if t >= 3600 {
      assert h >= 1;
    }
    if h > 0 {
      assert h * 3600 >= 3600;
    }
  }

  /** A time picked on the minute and second wheels. */
  function Compose(minutes: int, seconds: int): int {
    minutes * 60 + seconds
  }

  /**
    Splitting a time with the truncating `/` and `%` and composing the two
    parts gives it back, negative times included; for a non-negative time
    the parts are the usual minutes and seconds below 60.
  */
  lemma {:induction false} SplitComposes(t: int)
    ensures Compose(Quot(t, 60), Rem(t, 60)) == t
    ensures t >= 0 ==> Quot(t, 60) == t / 60 && Rem(t, 60) == t % 60 && 0 <= Rem(t, 60) < 60
  {
  }

  // ---------------------------------------------------------------------------
  // Clock readings: "M:SS" and "H:MM:SS"
  // ---------------------------------------------------------------------------

  predicate IsTwoDigits(s: string) {
    |s| == 2 && AllDigits(s)
  }

  /**
    Reads a clock string back to seconds: "M:SS" or "H:MM:SS" with a
    positive hour field. Inverse of `MinSec` and `Hms` on non-negative input.
  */
  function ParseClock(s: string): Option<int> {
    ClockValue(SplitColons(s))
  }

  /** The seconds named by the fields of a clock reading, if they form one. */
  function ClockValue(f: seq<string>): Option<int> {
    if |f| == 2 && Canonical(f[0]) && IsTwoDigits(f[1]) then
      Some(ParseNat(f[0]) * 60 + ParseNat(f[1]))
    else if |f| == 3 && Canonical(f[0]) && ParseNat(f[0]) > 0 && IsTwoDigits(f[1]) && IsTwoDigits(f[2]) then
      Some(ParseNat(f[0]) * 3600 + ParseNat(f[1]) * 60 + ParseNat(f[2]))
    else None
  }

  /** Every field after the leading one is two digits below 60. */
  predicate SubFieldsBelow60(s: string) {
    var f := SplitColons(s);
    forall k :: 1 <= k < |f| ==> IsTwoDigits(f[k]) && ParseNat(f[k]) < 60
  }

  /** `"%d:%02d"` of two fields. */
  function Clock2(a: int, b: int): string {
    Decimal(a) + ":" + Pad2(b)
  }

  /** `"%d:%02d:%02d"` of three fields. */
  function Clock3(a: int, b: int, c: int): string {
    Decimal(a) + ":" + Pad2(b) + ":" + Pad2(c)
  }

  /** Two colon-free fields joined by a colon split back into the two. */
  lemma {:induction false} SplitTwo(x: string, y: string)
    requires IndexOf(x, ':') == |x| && IndexOf(y, ':') == |y|
    ensures SplitColons(x + ":" + y) == [x, y]
  {
    SplitAfterField(x, y);
    assert SplitColons(y) == [y];
  }

  /** Three colon-free fields joined by colons split back into the three. */
  lemma {:induction false} SplitThree(x: string, y: string, z: string)
    requires IndexOf(x, ':') == |x| && IndexOf(y, ':') == |y| && IndexOf(z, ':') == |z|
    ensures SplitColons(x + ":" + y + ":" + z) == [x, y, z]
  {
    assert x + ":" + y + ":" + z == x + ":" + (y + ":" + z);
    SplitAfterField(x, y + ":" + z);
    SplitTwo(y, z);
  }

  /** A `"M:SS"` reading made of any canonical minute field and two-digit seconds. */
  lemma {:induction false} ClockTextTwo(x: string, y: string)
    requires Canonical(x) && IsTwoDigits(y) && ParseNat(y) < 60
    ensures var s := x + ":" + y;
      ParseClock(s) == Some(ParseNat(x) * 60 + ParseNat(y)) &&
      |SplitColons(s)| == 2 && SubFieldsBelow60(s)
  {
    DigitsExclude(x, ':');
    DigitsExclude(y, ':');
    SplitTwo(x, y);
    assert ClockValue([x, y]) == Some(ParseNat(x) * 60 + ParseNat(y));
  }

  /** An `"H:MM:SS"` reading made of any canonical positive hour field and two-digit fields. */
  lemma {:induction false} ClockTextThree(x: string, y: string, z: string)
    requires Canonical(x) && ParseNat(x) > 0
    requires IsTwoDigits(y) && ParseNat(y) < 60 && IsTwoDigits(z) && ParseNat(z) < 60
    ensures var s := x + ":" + y + ":" + z;
      ParseClock(s) == Some(ParseNat(x) * 3600 + ParseNat(y) * 60 + ParseNat(z)) &&
      |SplitColons(s)| == 3 && SubFieldsBelow60(s)
  {
    DigitsExclude(x, ':');
    DigitsExclude(y, ':');
    DigitsExclude(z, ':');
    SplitThree(x, y, z);
    assert ClockValue([x, y, z]) == Some(ParseNat(x) * 3600 + ParseNat(y) * 60 + ParseNat(z));
  }

  lemma {:induction false} Clock2ReadBack(a: int, b: int)
    requires a >= 0 && 0 <= b < 60
    ensures ParseClock(Clock2(a, b)) == Some(a * 60 + b)
    ensures |SplitColons(Clock2(a, b))| == 2 && SubFieldsBelow60(Clock2(a, b))
  {
    ParseNatDigits(a);
    ClockTextTwo(Decimal(a), Pad2(b));
  }

  lemma {:induction false} Clock3ReadBack(a: int, b: int, c: int)
    requires a > 0 && 0 <= b < 60 && 0 <= c < 60
    ensures ParseClock(Clock3(a, b, c)) == Some(a * 3600 + b * 60 + c)
    ensures |SplitColons(Clock3(a, b, c))| == 3 && SubFieldsBelow60(Clock3(a, b, c))
  {
    ParseNatDigits(a);
    ClockTextThree(Decimal(a), Pad2(b), Pad2(c));
  }

  /** `String(format: "%d:%02d", t / 60, t % 60)`, the minutes uncapped. */
  function MinSec(t: int): (s: string)
    ensures t >= 0 ==> ParseClock(s) == Some(t) && |SplitColons(s)| == 2 && SubFieldsBelow60(s)
  {
    if t >= 0 then
      Clock2ReadBack(t / 60, t % 60);
      Clock2(Quot(t, 60), Rem(t, 60))
    else Clock2(Quot(t, 60), Rem(t, 60))
  }

  /**
    `"%d:%02d:%02d"` of hours, minutes and seconds when the hour count is
    positive, else `"%d:%02d"` of minutes and seconds; the minute field is
    the remainder below an hour.
  */
  function Hms(t: int): (s: string)
    ensures t >= 0 ==> ParseClock(s) == Some(t) && SubFieldsBelow60(s)
    ensures t >= 0 ==> (|SplitColons(s)| == 3 <==> t >= 3600)
  {
    if t < 0 then
      var hours := Quot(t, 3600);
      var minutes := Quot(Rem(t, 3600), 60);
      var seconds := Rem(t, 60);
      if hours > 0 then Clock3(hours, minutes, seconds) else Clock2(minutes, seconds)
    else
      // On a non-negative total Swift's `/` and `%` are Euclidean.
      HmsReadBack(t);
      if t / 3600 > 0 then Clock3(t / 3600, (t % 3600) / 60, t % 60)
      else Clock2((t % 3600) / 60, t % 60)
  }

  lemma {:induction false} HmsReadBack(t: int)
    requires t >= 0
    ensures t / 3600 > 0 ==> var s := Clock3(t / 3600, (t % 3600) / 60, t % 60);
      ParseClock(s) == Some(t) && SubFieldsBelow60(s) && |SplitColons(s)| == 3 && t >= 3600
    ensures t / 3600 <= 0 ==> var s := Clock2((t % 3600) / 60, t % 60);
      ParseClock(s) == Some(t) && SubFieldsBelow60(s) && |SplitColons(s)| == 2 && t < 3600
  {
    HourMinuteSecond(t);
    ClockReadBack(t / 3600, (t % 3600) / 60, t % 60, t);
  }

  /** The clock reading of `h` hours, `m` minutes and `sec` seconds reads back as `t` seconds. */
  lemma {:induction false} ClockReadBack(h: int, m: int, sec: int, t: int)
    requires h >= 0 && 0 <= m < 60 && 0 <= sec < 60 && h * 3600 + m * 60 + sec == t
    ensures h > 0 ==> (ParseClock(Clock3(h, m, sec)) == Some(t) &&
      SubFieldsBelow60(Clock3(h, m, sec)) && |SplitColons(Clock3(h, m, sec))| == 3)
    ensures h == 0 ==> (ParseClock(Clock2(m, sec)) == Some(t) &&
      SubFieldsBelow60(Clock2(m, sec)) && |SplitColons(Clock2(m, sec))| == 2)
  {
    if h > 0 {
      Clock3ReadBack(h, m, sec);
    } else {
      Clock2ReadBack(m, sec);
    }
  }

  // ---------------------------------------------------------------------------
  // "Hh Mm" / "Mm" summaries
  // ---------------------------------------------------------------------------

  /**
    `"%dh %dm"` of hours and minutes when the hour count is positive, else
    `"%dm"` of minutes; seconds are dropped.
  */
  function HoursMinutes(t: int): (s: string)
    ensures t >= 0 ==> ParseHoursMinutes(s) == Some(t / 60)
    ensures t >= 0 ==> ('h' in s <==> t >= 3600)
  {
    if t < 0 then
      var hours := Quot(t, 3600);
      var minutes := Quot(Rem(t, 3600), 60);
      if hours > 0 then HourText(hours, minutes) else MinuteText(minutes)
    else
      // On a non-negative total Swift's `/` and `%` are Euclidean.
      HoursMinutesReadBack(t);
      if t / 3600 > 0 then HourText(t / 3600, (t % 3600) / 60)
      else MinuteText((t % 3600) / 60)
  }

  lemma {:induction false} HoursMinutesReadBack(t: int)
    requires t >= 0
    ensures t / 3600 > 0 ==> var s := HourText(t / 3600, (t % 3600) / 60);
      ParseHoursMinutes(s) == Some(t / 60) && 'h' in s && t >= 3600
    ensures t / 3600 <= 0 ==> var s := MinuteText((t % 3600) / 60);
      ParseHoursMinutes(s) == Some(t / 60) && 'h' !in s && t < 3600
  {
    HourMinuteSecond(t);
    SummaryReadBack(t / 3600, (t % 3600) / 60, t / 60);
  }

  /** The summary of `h` hours and `m` minutes reads back as `q` minutes. */
  lemma {:induction false} SummaryReadBack(h: int, m: int, q: int)
    requires h >= 0 && 0 <= m < 60 && h * 60 + m == q
    ensures h > 0 ==> ParseHoursMinutes(HourText(h, m)) == Some(q) && 'h' in HourText(h, m)
    ensures h == 0 ==> ParseHoursMinutes(MinuteText(m)) == Some(q) && 'h' !in MinuteText(m)
  {
    if h > 0 {
      HourTextReadBack(h, m);
    } else {
      MinuteTextReadBack(m);
    }
  }

  function HourText(h: int, m: int): string {
    Decimal(h) + "h " + Decimal(m) + "m"
  }

  function MinuteText(m: int): string {
    Decimal(m) + "m"
  }

  /**
    Reads a summary back to whole minutes: `"Hh Mm"` with a positive hour
    count, or `"Mm"`, the minute count below 60 in both.
  */
  function ParseHoursMinutes(s: string): Option<int> {
    if |s| >= 2 && s[|s| - 1] == 'm' then
      var body := s[..|s| - 1];
      var i := IndexOf(body, 'h');
      if i < |body| then
        if i + 1 < |body| && body[i + 1] == ' ' && Canonical(body[..i]) && ParseNat(body[..i]) > 0
          && Canonical(From(body, i + 2)) && ParseNat(From(body, i + 2)) < 60
        then
          Some(ParseNat(body[..i]) * 60 + ParseNat(From(body, i + 2)))
        else None
      else if Canonical(body) && ParseNat(body) < 60 then Some(ParseNat(body))
      else None
    else None
  }

  /** An `"Hh Mm"` summary made of any canonical fields reads back, the hour count positive. */
  lemma {:induction false} HourTextFields(x: string, y: string)
    requires Canonical(x) && ParseNat(x) > 0 && Canonical(y) && ParseNat(y) < 60
    ensures var s := x + "h " + y + "m";
      ParseHoursMinutes(s) == Some(ParseNat(x) * 60 + ParseNat(y)) && 'h' in s
  {
    var s := x + "h " + y + "m";
    var body := s[..|s| - 1];
    assert body == x + ['h'] + (" " + y);
    DigitsExclude(x, 'h');
    IndexOfAfter(x, 'h', " " + y);
    assert body[..|x|] == x;
    FromIsSuffix(body, |x| + 2);
    assert body[|x| + 2..] == y;
    assert s[|x|] == 'h';
  }

  /** An `"Mm"` summary made of any canonical field below 60 reads back. */
  lemma {:induction false} MinuteTextFields(y: string)
    requires Canonical(y) && ParseNat(y) < 60
    ensures var s := y + "m"; ParseHoursMinutes(s) == Some(ParseNat(y)) && 'h' !in s
  {
    var s := y + "m";
    assert s[..|s| - 1] == y;
    DigitsExclude(y, 'h');
    DigitsLack(y, 'h');
    assert s == y + ['m'];
  }

  lemma {:induction false} HourTextReadBack(h: int, m: int)
    requires h > 0 && 0 <= m < 60
    ensures ParseHoursMinutes(HourText(h, m)) == Some(h * 60 + m)
    ensures 'h' in HourText(h, m)
  {
    ParseNatDigits(h);
    ParseNatDigits(m);
    HourTextFields(Decimal(h), Decimal(m));
  }

  lemma {:induction false} MinuteTextReadBack(m: int)
    requires 0 <= m < 60
    ensures ParseHoursMinutes(MinuteText(m)) == Some(m)
    ensures 'h' !in MinuteText(m)
  {
    ParseNatDigits(m);
    MinuteTextFields(Decimal(m));
  }

  // ---------------------------------------------------------------------------
  // Compact durations: "3min" or "2:30"
  // ---------------------------------------------------------------------------

  /** A unit suffix made of letters only, so it never ends a numeral. */
  predicate IsUnit(unit: string) {
    |unit| >= 1 && forall i :: 0 <= i < |unit| ==> 'a' <= unit[i] <= 'z'
  }

  predicate EndsWith(s: string, suffix: string) {
    |suffix| <= |s| && From(s, |s| - |suffix|) == suffix
  }

  /**
    Whole minutes as the minute count followed by `unit`; otherwise
    `"\(minutes):" + "%02d"` of the seconds.
  */
  function CompactDuration(t: int, unit: string): (s: string)
    requires IsUnit(unit)
    ensures t >= 0 ==> ParseCompactDuration(s, unit) == Some(t)
    ensures t >= 0 ==> (EndsWith(s, unit) <==> t % 60 == 0)
  {
    var minutes := Quot(t, 60);
    var secs := Rem(t, 60);
    if t < 0 then
      if secs == 0 then Decimal(minutes) + unit else Clock2(minutes, secs)
    else if secs == 0 then
      UnitTextReadBack(minutes, unit);
      Decimal(minutes) + unit
    else
      ClockTextNotUnit(minutes, secs, unit);
      Clock2(minutes, secs)
  }

  /**
    Reads a compact duration back to seconds: the minute count followed by
    the unit, or `"M:SS"` with the seconds below 60.
  */
  function ParseCompactDuration(s: string, unit: string): Option<int> {
    if EndsWith(s, unit) && Canonical(s[..|s| - |unit|]) then Some(ParseNat(s[..|s| - |unit|]) * 60)
    else
      var f := SplitColons(s);
      if |f| == 2 && Canonical(f[0]) && IsTwoDigits(f[1]) && ParseNat(f[1]) < 60 then
        Some(ParseNat(f[0]) * 60 + ParseNat(f[1]))
      else None
  }

  /** Any canonical minute count followed by the unit reads back as whole minutes. */
  lemma {:induction false} UnitTextFields(x: string, unit: string)
    requires Canonical(x) && IsUnit(unit)
    ensures ParseCompactDuration(x + unit, unit) == Some(ParseNat(x) * 60)
    ensures EndsWith(x + unit, unit)
  {
    var s := x + unit;
    assert s[..|s| - |unit|] == x;
    FromIsSuffix(s, |s| - |unit|);
    assert s[|s| - |unit|..] == unit;
  }

  lemma {:induction false} UnitTextReadBack(m: int, unit: string)
    requires m >= 0 && IsUnit(unit)
    ensures ParseCompactDuration(Decimal(m) + unit, unit) == Some(m * 60)
    ensures EndsWith(Decimal(m) + unit, unit)
  {
    ParseNatDigits(m);
    UnitTextFields(Decimal(m), unit);
  }

  lemma {:induction false} ClockTextNotUnit(m: int, sec: int, unit: string)
    requires m >= 0 && 0 < sec < 60 && IsUnit(unit)
    ensures ParseCompactDuration(Clock2(m, sec), unit) == Some(m * 60 + sec)
    ensures !EndsWith(Clock2(m, sec), unit)
  {
    var s := Clock2(m, sec);
    Clock2ReadBack(m, sec);
    var p := Pad2(sec);
    assert s[|s| - 1] == p[1];
    assert IsDigit(p[1]);
    assert s[|s| - 1] != unit[|unit| - 1];
    assert !EndsWith(s, unit) by {
      if |unit| <= |s| {
        FromIsSuffix(s, |s| - |unit|);
        assert s[|s| - |unit|..][|unit| - 1] == s[|s| - 1];
      }
    }
  }
}

=== FILE: phase_clock.dfy ===
/**
  The phase clock shared by the phone and the watch timer managers: the
  timing part of a preset, the transition taken when a phase runs out, and
  the workout timeline that gives each phase its place in seconds from the
  start of the workout.
*/
module PhaseClock {
  import opened TimerStates

  /** The four preset fields the timer managers read. */
  datatype Schedule = Schedule(prepareTime: int, roundTime: int, restTime: int, numberOfRounds: int)

  /** A schedule the editor can produce: no negative duration, at least one round. */
  predicate WellFormed(s: Schedule) {
    s.prepareTime >= 0 && s.roundTime >= 0 && s.restTime >= 0 && s.numberOfRounds >= 1
  }

  /**
    The total the preset views display: prepare, every round, and a rest
    between consecutive rounds (`max(n - 1, 0)` rests).
  */
  function TotalWorkoutTime(s: Schedule): int {
    var rests := if s.numberOfRounds - 1 > 0 then s.numberOfRounds - 1 else 0;
    s.prepareTime + s.roundTime * s.numberOfRounds + s.restTime * rests
  }

  /** The nominal length of a phase; Idle and Finished have none. */
  function Duration(s: Schedule, p: Phase): int {
    match p
    case Prepare => s.prepareTime
    case Round => s.roundTime
    case Rest => s.restTime
    case _ => 0
  }

  // ---------------------------------------------------------------------------
  // Termination measure
  // ---------------------------------------------------------------------------

  /** Transitions still to come from a round with this number. */
  function RoundTransitions(s: Schedule, round: int): nat {
    if round >= s.numberOfRounds then 1 else 2 * (s.numberOfRounds - round) + 1
  }

  /** The number of transitions left before the workout reaches Finished. */
  function TransitionsLeft(s: Schedule, st: TimerState): nat {
    match st.phase
    case Prepare => 1 + RoundTransitions(s, st.currentRound)
    case Round => RoundTransitions(s, st.currentRound)
    case Rest => 1 + RoundTransitions(s, st.currentRound + 1)
    case _ => 0
  }

  // ---------------------------------------------------------------------------
  // The transition (`transitionToNextPhase`, state part)
  // ---------------------------------------------------------------------------

  /**
    The state after the current phase ends: Prepare goes to the same round,
    a round goes to Rest or, when it was the last, to Finished (and stops
    running), Rest goes to the next round. A rest of length zero is still
    entered. Idle and Finished do not move.
  */
  function NextPhase(s: Schedule, st: TimerState): (r: TimerState)
    ensures st.phase == Prepare ==> r.phase == Round
    ensures st.phase == Round && st.currentRound >= s.numberOfRounds ==> r.phase == Finished
    ensures st.phase == Round && st.currentRound < s.numberOfRounds ==> r.phase == Rest
    ensures st.phase == Rest ==> r.phase == Round
    ensures st.phase.Counting() ==> TransitionsLeft(s, r) + 1 == TransitionsLeft(s, st)
    ensures !st.phase.Counting() ==> r == st
    ensures r.currentRound != st.currentRound ==> st.phase == Rest && r.currentRound == st.currentRound + 1
    ensures r.phase == Rest && st.phase != Rest ==> st.phase == Round && st.currentRound < s.numberOfRounds
    ensures r.phase == Finished && st.phase != Finished ==> st.phase == Round && st.currentRound >= s.numberOfRounds
    ensures r.phase == Finished && st.phase != Finished ==> !r.isRunning && r.timeRemaining == st.timeRemaining
    ensures r.phase.Counting() && st.phase.Counting() ==> r.timeRemaining == Duration(s, r.phase)
    ensures r.phase != Finished ==> r.isRunning == st.isRunning
  {
    match st.phase
    case Prepare => st.(phase := Round, timeRemaining := s.roundTime)
    case Round =>
      if st.currentRound >= s.numberOfRounds then st.(phase := Finished, isRunning := false)
      else st.(phase := Rest, timeRemaining := s.restTime)
    case Rest => st.(phase := Round, currentRound := st.currentRound + 1, timeRemaining := s.roundTime)
    case _ => st
  }

  // ---------------------------------------------------------------------------
  // Reachable states
  // ---------------------------------------------------------------------------

  /**
    The states a timer manager can be in while working through `s`: Idle is
    exactly the defaults, Prepare is in round 1, rounds stay within
    1..numberOfRounds, Rest only comes before a further round, Finished is
    the last round with nothing left and not running, and the countdown
    never exceeds the phase's nominal length.
  */
  predicate Valid(s: Schedule, st: TimerState) {
    match st.phase
    case Idle => st == Initial
    case Prepare => st.currentRound == 1 && 0 <= st.timeRemaining <= s.prepareTime
    case Round => 1 <= st.currentRound <= s.numberOfRounds && 0 <= st.timeRemaining <= s.roundTime
    case Rest => 1 <= st.currentRound < s.numberOfRounds && 0 <= st.timeRemaining <= s.restTime
    case Finished => st.currentRound == s.numberOfRounds && st.timeRemaining == 0 && !st.isRunning
  }

  /**
    The round bound: in every valid state the round lies in 1..numberOfRounds
    and the countdown within its phase. It only unfolds `Valid`; its weight
    comes from the invariant lemmas, which show every reachable engine state
    is `Valid`.
  */
  lemma ValidRoundInRange(s: Schedule, st: TimerState)
    requires WellFormed(s) && Valid(s, st)
    ensures 1 <= st.currentRound <= s.numberOfRounds
    ensures 0 <= st.timeRemaining <= Duration(s, st.phase)
    ensures !st.phase.Counting() ==> !st.isRunning
  {
  }

  /** A transition out of a valid state lands in a valid state. */
  lemma NextPhasePreservesValid(s: Schedule, st: TimerState)
    requires WellFormed(s) && Valid(s, st)
    ensures var n := NextPhase(s, st);
      Valid(s, if n.phase == Finished then n.(timeRemaining := 0) else n)
    ensures st.timeRemaining == 0 ==> Valid(s, NextPhase(s, st))
  {
  }

  /** From any valid state at most 2 * numberOfRounds transitions remain. */
  lemma TransitionsBounded(s: Schedule, st: TimerState)
    requires WellFormed(s) && Valid(s, st)
    ensures TransitionsLeft(s, st) <= 2 * s.numberOfRounds
  {
  }

  // ---------------------------------------------------------------------------
  // The workout timeline
  // ---------------------------------------------------------------------------

  /** Seconds from the start of the workout to the start of round `round`. */
  function RoundStart(s: Schedule, round: int): int
    decreases round
  {
    if round <= 1 then s.prepareTime else RoundStart(s, round - 1) + s.roundTime + s.restTime
  }

  /** Seconds from the start of the workout to the end of the last round. */
  function WorkoutEnd(s: Schedule): int {
    RoundStart(s, s.numberOfRounds) + s.roundTime
  }

  /** Where a phase begins on the timeline. */
  function PhaseStart(s: Schedule, p: Phase, round: int): int {
    match p
    case Idle => 0
    case Prepare => 0
    case Round => RoundStart(s, round)
    case Rest => RoundStart(s, round) + s.roundTime
    case Finished => WorkoutEnd(s)
  }

  /** Where the current phase ends on the timeline. */
  function PhaseEnd(s: Schedule, st: TimerState): int {
    PhaseStart(s, st.phase, st.currentRound) + Duration(s, st.phase)
  }

  /** Seconds of the workout already behind a state. */
  function Position(s: Schedule, st: TimerState): int {
    PhaseEnd(s, st) - st.timeRemaining
  }

  lemma {:induction false} RoundStartClosedForm(s: Schedule, round: int)
    requires round >= 1
    ensures RoundStart(s, round) == s.prepareTime + (round - 1) * (s.roundTime + s.restTime)
    decreases round
  {
    if round > 1 {
      RoundStartClosedForm(s, round - 1);
      assert (round - 2) * (s.roundTime + s.restTime) + (s.roundTime + s.restTime)
          == (round - 1) * (s.roundTime + s.restTime);
    }
  }

  /**
    The timeline ends at the views' total: prepare, every round and the
    rests between them.
  */
  lemma WorkoutEndIsTotal(s: Schedule)
    requires WellFormed(s)
    ensures WorkoutEnd(s) == TotalWorkoutTime(s)
  {
    var n := s.numberOfRounds;
    RoundStartClosedForm(s, n);
    assert (n - 1) * (s.roundTime + s.restTime) + s.roundTime == s.roundTime * n + s.restTime * (n - 1);
  }

  lemma {:induction false} RoundStartMonotone(s: Schedule, a: int, b: int)
    requires WellFormed(s) && 1 <= a <= b
    ensures RoundStart(s, a) <= RoundStart(s, b)
    decreases b - a
  {
    if a < b {
      RoundStartMonotone(s, a, b - 1);
    }
  }

  /** A valid state sits between the start and the end of the workout. */
  lemma PositionWithinWorkout(s: Schedule, st: TimerState)
    requires WellFormed(s) && Valid(s, st)
    ensures 0 <= Position(s, st) <= PhaseEnd(s, st) <= WorkoutEnd(s)
  {
    var n := s.numberOfRounds;
    RoundStartMonotone(s, 1, n);
    match st.phase
    case Round =>
      RoundStartMonotone(s, 1, st.currentRound);
      RoundStartMonotone(s, st.currentRound, n);
    case Rest =>
      RoundStartMonotone(s, 1, st.currentRound);
      RoundStartMonotone(s, st.currentRound + 1, n);
    case _ =>
  }

  /**
    A transition does not move the timeline: the next phase starts exactly
    where the current one ends, and it starts at its full length.
  */
  lemma NextPhaseContinuesTimeline(s: Schedule, st: TimerState)
    requires WellFormed(s) && Valid(s, st) && st.phase.Counting()
    ensures PhaseStart(s, NextPhase(s, st).phase, NextPhase(s, st).currentRound) == PhaseEnd(s, st)
    ensures NextPhase(s, st).phase != Finished ==> Position(s, NextPhase(s, st)) == PhaseEnd(s, st)
  {
  }
}

=== FILE: preset.dfy ===
/** A workout preset (`Preset`) and the five built-in ones. */
module Presets {
  import opened PhaseClock

  /** A preset identifier; the app draws a fresh random UUID for each. */
  type Uuid = nat

  datatype Preset = Preset(
    id: Uuid,
    name: string,
    prepareTime: int,
    roundTime: int,
    restTime: int,
    numberOfRounds: int,
    isFavorite: bool)
  {
    /** The fields the timer managers read. */
    function Timing(): Schedule {
      Schedule(prepareTime, roundTime, restTime, numberOfRounds)
    }
  }

  /**
    The memberwise initializer: it stores its arguments unchanged and a
    preset is not a favourite unless the caller says so. The `UUID()`
    default for `id` is drawn by the caller.
  */
  function Make(id: Uuid, name: string, prepareTime: int, roundTime: int, restTime: int,
                numberOfRounds: int, isFavorite: bool := false): (p: Preset)
    ensures p.Timing() == Schedule(prepareTime, roundTime, restTime, numberOfRounds)
    ensures p.id == id && p.name == name && p.isFavorite == isFavorite
  {
    Preset(id, name, prepareTime, roundTime, restTime, numberOfRounds, isFavorite)
  }

  // The built-in presets. Each gets a random UUID at launch; distinct
  // placeholders stand in for them here.
  const BoxingStandard: Preset := Make(1, "Boxing Standard", 10, 180, 60, 12)
  const MmaStyle: Preset := Make(2, "MMA Style", 10, 300, 60, 5)
  const QuickTraining: Preset := Make(3, "Quick Training", 5, 120, 30, 6)
  const BjjRolling: Preset := Make(4, "BJJ Rolling", 10, 360, 60, 5)
  const MuayThai: Preset := Make(5, "Muay Thai", 10, 180, 120, 5)

  /** `Preset.defaultPresets`, in display order. */
  const DefaultPresets: seq<Preset> := [BoxingStandard, MmaStyle, MuayThai, BjjRolling, QuickTraining]

  /**
    The built-in list: five presets in the order Boxing, MMA, Muay Thai,
    BJJ, Quick, with distinct ids, every one startable (at least one round
    of positive length, no negative durations).
  */
  lemma DefaultPresetsFacts()
    ensures |DefaultPresets| == 5
    ensures DefaultPresets[0].name == "Boxing Standard" && DefaultPresets[1].name == "MMA Style"
    ensures DefaultPresets[2].name == "Muay Thai" && DefaultPresets[3].name == "BJJ Rolling"
    ensures DefaultPresets[4].name == "Quick Training"
    ensures forall i, j :: 0 <= i < j < |DefaultPresets| ==> DefaultPresets[i].id != DefaultPresets[j].id
    ensures forall i :: 0 <= i < |DefaultPresets| ==>
      WellFormed(DefaultPresets[i].Timing()) && DefaultPresets[i].roundTime > 0 && !DefaultPresets[i].isFavorite
    ensures BoxingStandard.Timing() == Schedule(10, 180, 60, 12)
    ensures BjjRolling.Timing() == Schedule(10, 360, 60, 5)
  {
  }
}

=== FILE: preset_editor.dfy ===
/**
  The preset editor's computations (`PresetEditorView`): times picked as
  minutes and seconds, the running total, loading an existing preset into
  the form and saving the form with its minimum durations.
*/
module PresetEditor {
  import opened Wrappers
  import opened Format
  import opened PhaseClock
  import opened Presets

  /** The editor's form fields. */
  datatype EditorForm = EditorForm(
    name: string,
    prepareMinutes: int,
    prepareSeconds: int,
    roundMinutes: int,
    roundSeconds: int,
    restMinutes: int,
    restSeconds: int,
    numberOfRounds: int)
  {
    /** The three times as minutes * 60 + seconds, with the round count. */
    function Timing(): Schedule {
      Schedule(Compose(prepareMinutes, prepareSeconds), Compose(roundMinutes, roundSeconds),
               Compose(restMinutes, restSeconds), numberOfRounds)
    }
  }

  /** A new preset's form: no name, 0:10 prepare, 3:00 rounds, 1:00 rest, 12 rounds. */
  const NewForm: EditorForm := EditorForm("", 0, 10, 3, 0, 1, 0, 12)

  lemma NewFormFacts()
    ensures NewForm.Timing() == BoxingStandard.Timing()
    ensures !CanSave(NewForm)
  {
  }

  /** The save button is enabled exactly when the name is not empty. */
  predicate CanSave(f: EditorForm) {
    |f.name| > 0
  }

  /** `totalWorkoutTime`: the preset views' formula applied to the form. */
  function FormTotal(f: EditorForm): (t: int)
    ensures WellFormed(f.Timing()) ==> t == WorkoutEnd(f.Timing())
  {
    if WellFormed(f.Timing()) then
      WorkoutEndIsTotal(f.Timing());
      TotalWorkoutTime(f.Timing())
    else TotalWorkoutTime(f.Timing())
  }

  /** `formattedTotalTime`: `"H:MM:SS"` from an hour on, else `"M:SS"`. */
  function FormattedTotalTime(f: EditorForm): (text: string)
    ensures FormTotal(f) >= 0 ==> ParseClock(text) == Some(FormTotal(f)) && SubFieldsBelow60(text)
    ensures FormTotal(f) >= 0 ==> (|SplitColons(text)| == 3 <==> FormTotal(f) >= 3600)
  {
    Hms(FormTotal(f))
  }

  /**
    `onAppear`: when editing, the preset's name and round count are copied
    and each time is split into minutes and seconds, which compose back to
    it; a new preset keeps the form as it is.
  */
  function OnAppear(f: EditorForm, editing: Option<Preset>): (r: EditorForm)
    ensures editing.None? ==> r == f
    ensures editing.Some? ==> r.Timing() == editing.value.Timing() && r.name == editing.value.name
    ensures editing.Some? && editing.value.prepareTime >= 0 ==> 0 <= r.prepareSeconds < 60
    ensures editing.Some? && editing.value.roundTime >= 0 ==> 0 <= r.roundSeconds < 60
    ensures editing.Some? && editing.value.restTime >= 0 ==> 0 <= r.restSeconds < 60
  {
    match editing
    case None => f
    case Some(p) =>
      SplitComposes(p.prepareTime);
      SplitComposes(p.roundTime);
      SplitComposes(p.restTime);
      EditorForm(p.name, Quot(p.prepareTime, 60), Rem(p.prepareTime, 60),
                 Quot(p.roundTime, 60), Rem(p.roundTime, 60),
                 Quot(p.restTime, 60), Rem(p.restTime, 60), p.numberOfRounds)
  }

  function Max(a: int, b: int): int {
    if a >= b then a else b
  }

  /**
    `savePreset()`: the form's times raised to at least 5 seconds of
    prepare, 10 of round and 5 of rest; the round count as it is; the
    edited preset's id, or the fresh one for a new preset; not a favourite.
  */
  function Save(f: EditorForm, editing: Option<Preset>, freshId: Uuid): (p: Preset)
    ensures p.prepareTime >= 5 && p.roundTime >= 10 && p.restTime >= 5
    ensures p.name == f.name && p.numberOfRounds == f.numberOfRounds && !p.isFavorite
    ensures p.id == (if editing.Some? then editing.value.id else freshId)
    ensures f.Timing().prepareTime >= 5 ==> p.prepareTime == f.Timing().prepareTime
    ensures f.Timing().roundTime >= 10 ==> p.roundTime == f.Timing().roundTime
    ensures f.Timing().restTime >= 5 ==> p.restTime == f.Timing().restTime
    ensures f.Timing().prepareTime < 5 ==> p.prepareTime == 5
    ensures f.Timing().roundTime < 10 ==> p.roundTime == 10
    ensures f.Timing().restTime < 5 ==> p.restTime == 5
  {
    var t := f.Timing();
    Make(match editing case Some(q) => q.id case None => freshId,
         f.name, Max(t.prepareTime, 5), Max(t.roundTime, 10), Max(t.restTime, 5), t.numberOfRounds)
  }

  /**
    Opening a preset in the editor and saving it untouched gives it back,
    except that it is no longer a favourite, as long as its times already
    meet the minimums.
  */
  lemma EditSaveRoundTrip(f: EditorForm, p: Preset, freshId: Uuid)
    requires p.prepareTime >= 5 && p.roundTime >= 10 && p.restTime >= 5
    ensures Save(OnAppear(f, Some(p)), Some(p), freshId) == p.(isFavorite := false)
  {
  }

  /** A saved preset with at least one round is well formed, so it can be started. */
  lemma SavedIsWellFormed(f: EditorForm, editing: Option<Preset>, freshId: Uuid)
    requires f.numberOfRounds >= 1
    ensures WellFormed(Save(f, editing, freshId).Timing())
    ensures Save(f, editing, freshId).roundTime > 0
  {
  }
}

=== FILE: preset_setup.dfy ===
/**
  The pre-start adjustment sheet (`PresetSetupView`): the preset's times
  split into minute and second wheels, the adjusted preset they compose,
  and its total.
*/
module PresetSetup {
  import opened Wrappers
  import opened Format
  import opened PhaseClock
  import opened Presets

  /** The sheet's wheels. */
  datatype SetupForm = SetupForm(
    rounds: int,
    roundMinutes: int,
    roundSeconds: int,
    restMinutes: int,
    restSeconds: int,
    prepareMinutes: int,
    prepareSeconds: int)
  {
    function Timing(): Schedule {
      Schedule(Compose(prepareMinutes, prepareSeconds), Compose(roundMinutes, roundSeconds),
               Compose(restMinutes, restSeconds), rounds)
    }
  }

  /** `init`: each time split into minutes and seconds, which compose back to it. */
  function Init(p: Preset): (f: SetupForm)
    ensures f.Timing() == p.Timing()
    ensures p.prepareTime >= 0 ==> 0 <= f.prepareSeconds < 60 && f.prepareMinutes == p.prepareTime / 60
    ensures p.roundTime >= 0 ==> 0 <= f.roundSeconds < 60 && f.roundMinutes == p.roundTime / 60
    ensures p.restTime >= 0 ==> 0 <= f.restSeconds < 60 && f.restMinutes == p.restTime / 60
  {
    SplitComposes(p.prepareTime);
    SplitComposes(p.roundTime);
    SplitComposes(p.restTime);
    SetupForm(p.numberOfRounds, Quot(p.roundTime, 60), Rem(p.roundTime, 60),
              Quot(p.restTime, 60), Rem(p.restTime, 60),
              Quot(p.prepareTime, 60), Rem(p.prepareTime, 60))
  }

  /**
    The preset started from the sheet: the original id and name with the
    wheels' times and rounds, no minimums applied, not a favourite.
  */
  function Adjusted(p: Preset, f: SetupForm): (q: Preset)
    ensures q.id == p.id && q.name == p.name && !q.isFavorite
    ensures q.Timing() == f.Timing()
  {
    Make(p.id, p.name, f.Timing().prepareTime, f.Timing().roundTime, f.Timing().restTime, f.rounds)
  }

  /** Starting without touching the wheels starts the preset itself, minus any favourite mark. */
  lemma UntouchedAdjustment(p: Preset)
    ensures Adjusted(p, Init(p)) == p.(isFavorite := false)
  {
  }

  /** `totalTimeFormatted`: the views' total as `"H:MM:SS"` from an hour on, else `"M:SS"`. */
  function TotalTimeFormatted(f: SetupForm): (text: string)
    ensures TotalWorkoutTime(f.Timing()) >= 0 ==>
      ParseClock(text) == Some(TotalWorkoutTime(f.Timing())) && SubFieldsBelow60(text)
    ensures TotalWorkoutTime(f.Timing()) >= 0 ==>
      (|SplitColons(text)| == 3 <==> TotalWorkoutTime(f.Timing()) >= 3600)
  {
    Hms(TotalWorkoutTime(f.Timing()))
  }

  /** Untouched, the sheet shows the length of the preset's whole timeline. */
  lemma UntouchedTotal(p: Preset)
    requires WellFormed(p.Timing())
    ensures ParseClock(TotalTimeFormatted(Init(p))) == Some(WorkoutEnd(p.Timing()))
  {
    var f := Init(p);
    assert f.Timing() == p.Timing();
    WorkoutEndIsTotal(p.Timing());
    var total := TotalWorkoutTime(p.Timing());
    assert total >= 0;
    assert ParseClock(TotalTimeFormatted(f)) == Some(total);
  }
}

=== FILE: preset_store.dfy ===
/**
  The phone's preset list (`PresetStore`) as pure operations on a
  sequence of presets. Persistence is a stored list that is either present
  and decodable or absent; every change writes the new list back.
*/
module PresetStores {
  import opened Wrappers
  import opened Seqs
  import opened Presets

  /** No two presets share an id. */
  predicate DistinctIds(ps: seq<Preset>) {
    forall i, j :: 0 <= i < j < |ps| ==> ps[i].id != ps[j].id
  }

  /** The list shown after loading, and the list left in storage. */
  datatype Loaded = Loaded(presets: seq<Preset>, stored: Option<seq<Preset>>)

  /**
    `loadPresets()`: a stored list is used as it is; without one the
    built-in presets are used and written back.
  */
  function Load(stored: Option<seq<Preset>>): (r: Loaded)
    ensures r.stored == Some(r.presets)
    ensures stored.Some? ==> r.presets == stored.value
    ensures stored.None? ==> r.presets == DefaultPresets && |r.presets| == 5 && DistinctIds(r.presets)
  {
    match stored
    case Some(ps) => Loaded(ps, stored)
    case None =>
      DefaultPresetsFacts();
      Loaded(DefaultPresets, Some(DefaultPresets))
  }

  /** Loading again from what a load left in storage gives the same list. */
  lemma LoadIsStable(stored: Option<seq<Preset>>)
    ensures Load(Load(stored).stored) == Load(stored)
    ensures Load(stored).presets != []
      || (stored.Some? && stored.value == [])
  {
    DefaultPresetsFacts();
  }

  /** `addPreset(_:)`: appended at the end. */
  function AddPreset(ps: seq<Preset>, p: Preset): (r: seq<Preset>)
    ensures |r| == |ps| + 1 && r[..|ps|] == ps && r[|ps|] == p
  {
    ps + [p]
  }

  /**
    `updatePreset(_:)`: the first preset with the same id is replaced; with
    no such preset nothing changes. The length never changes.
  */
  function UpdatePreset(ps: seq<Preset>, p: Preset): (r: seq<Preset>)
    ensures |r| == |ps|
    ensures (forall j :: 0 <= j < |ps| ==> ps[j].id != p.id) ==> r == ps
    ensures forall j :: 0 <= j < |ps| && ps[j].id == p.id && (forall k :: 0 <= k < j ==> ps[k].id != p.id) ==>
      r == ps[j := p]
  {
    match FirstIndex(ps, (q: Preset) => q.id == p.id)
    case None => ps
    case Some(i) => ps[i := p]
  }

  /**
    After an update the preset is found under its id, and everything before
    it is untouched.
  */
  lemma UpdateThenFind(ps: seq<Preset>, p: Preset, i: nat)
    requires i < |ps| && ps[i].id == p.id
    ensures var r := UpdatePreset(ps, p);
      exists j :: 0 <= j <= i && r[j] == p && r[..j] == ps[..j]
  {
    var j :| FirstIndex(ps, (q: Preset) => q.id == p.id) == Some(j);
    assert UpdatePreset(ps, p)[j] == p;
  }

  /** `deletePreset(_:)`: every preset with that id goes; the rest keep their order. */
  function DeletePreset(ps: seq<Preset>, p: Preset): (r: seq<Preset>)
    ensures forall i :: 0 <= i < |r| ==> r[i].id != p.id && r[i] in ps
    ensures forall i :: 0 <= i < |ps| && ps[i].id != p.id ==> ps[i] in r
    ensures |r| <= |ps|
  {
    Filter(ps, (q: Preset) => q.id != p.id)
  }

  /**
    Deletion is determined preset by preset: the empty list stays empty, a
    single preset stays exactly when its id differs, and deleting from two
    stretches of the list is deleting from each in turn. So the survivors
    keep their order and their repetitions.
  */
  lemma DeletePiecewise(a: seq<Preset>, b: seq<Preset>, x: Preset, p: Preset)
    ensures DeletePreset([], p) == []
    ensures DeletePreset([x], p) == (if x.id == p.id then [] else [x])
    ensures DeletePreset(a + b, p) == DeletePreset(a, p) + DeletePreset(b, p)
  {
    var keep := (q: Preset) => q.id != p.id;
    FilterConcat(a, b, keep);
    assert [x][1..] == [];
  }

  /** Deleting a preset that was just added restores the list, given a fresh id. */
  lemma DeleteUndoesAdd(ps: seq<Preset>, p: Preset)
    requires forall i :: 0 <= i < |ps| ==> ps[i].id != p.id
    ensures DeletePreset(AddPreset(ps, p), p) == ps
  {
    var keep := (q: Preset) => q.id != p.id;
    FilterConcat(ps, [p], keep);
    FilterKeepsAll(ps, keep);
    assert Filter([p], keep) == [];
  }

  /** With distinct ids, deleting a listed preset removes exactly one entry. */
  lemma {:induction false} DeleteListedDropsOne(ps: seq<Preset>, k: nat)
    requires DistinctIds(ps) && k < |ps|
    ensures |DeletePreset(ps, ps[k])| == |ps| - 1
    decreases |ps|
  {
    var keep := (q: Preset) => q.id != ps[k].id;
    if k == 0 {
      FilterKeepsAll(ps[1..], keep);
    } else {
      assert DistinctIds(ps[1..]);
      assert ps[1..][k - 1] == ps[k];
      DeleteListedDropsOne(ps[1..], k - 1);
    }
  }

  /** Deleting the first built-in preset from a fresh store leaves four. */
  lemma DeleteFirstDefault()
    ensures |DeletePreset(DefaultPresets, DefaultPresets[0])| == 4
  {
    DefaultPresetsFacts();
    DeleteListedDropsOne(DefaultPresets, 0);
  }

  /**
    `deletePresets(at:)`: the presets at the given offsets go, the others
    stay in order; every offset must be a valid index.
  */
  function DeletePresets(ps: seq<Preset>, offsets: set<int>): (r: seq<Preset>)
    requires forall i :: i in offsets ==> 0 <= i < |ps|
    ensures |r| == |ps| - |offsets|
    ensures forall i :: 0 <= i < |ps| && i !in offsets ==> ps[i] in r
    ensures var ks := Survivors(|ps|, offsets);
      |r| == |ks| && forall j :: 0 <= j < |r| ==> r[j] == ps[ks[j]]
  {
    var r := RemoveOffsets(ps, offsets);
    var ks := Survivors(|ps|, offsets);
    forall i | 0 <= i < |ps| && i !in offsets
      ensures ps[i] in r
    {
      var j :| 0 <= j < |ks| && ks[j] == i;
      assert r[j] == ps[i];
    }
    r
  }
}

=== FILE: seqs.dfy ===
/**
  The list operations the two stores share: removing every element that
  matches, finding the first element that matches, and removing a set of
  offsets.
*/
module Seqs {
  import opened Wrappers

  /**
    `removeAll(where:)` with the complement: the elements `keep` accepts,
    in their original order.
  */
  function Filter<T>(s: seq<T>, keep: T -> bool): (r: seq<T>)
    ensures |r| <= |s|
    ensures forall i :: 0 <= i < |r| ==> keep(r[i]) && r[i] in s
    ensures forall i :: 0 <= i < |s| && keep(s[i]) ==> s[i] in r
  {
    if |s| == 0 then []
    else if keep(s[0]) then [s[0]] + Filter(s[1..], keep)
    else Filter(s[1..], keep)
  }

  /** Filtering distributes over concatenation, so the survivors keep their order. */
  lemma {:induction false} FilterConcat<T>(a: seq<T>, b: seq<T>, keep: T -> bool)
    ensures Filter(a + b, keep) == Filter(a, keep) + Filter(b, keep)
    decreases |a|
  {
    if |a| == 0 {
      assert a + b == b;
    } else {
      assert (a + b)[0] == a[0];
      assert (a + b)[1..] == a[1..] + b;
      FilterConcat(a[1..], b, keep);
    }
  }

  /** A list whose every element is kept comes back unchanged. */
  lemma {:induction false} FilterKeepsAll<T>(s: seq<T>, keep: T -> bool)
    requires forall i :: 0 <= i < |s| ==> keep(s[i])
    ensures Filter(s, keep) == s
    decreases |s|
  {
    if |s| > 0 {
      FilterKeepsAll(s[1..], keep);
    }
  }

  /** The offset of the first element `p` accepts, if there is one. */
  function FirstIndex<T>(s: seq<T>, p: T -> bool): (r: Option<nat>)
    ensures r.Some? ==> r.value < |s| && p(s[r.value]) && forall j :: 0 <= j < r.value ==> !p(s[j])
    ensures r.None? ==> forall j :: 0 <= j < |s| ==> !p(s[j])
  {
    if |s| == 0 then None
    else if p(s[0]) then Some(0)
    else
      match FirstIndex(s[1..], p)
      case None => None
      case Some(i) => Some(i + 1)
  }

  /**
    The offsets below `n` that survive removing `offsets`, in increasing
    order: exactly those not in `offsets`.
  */
  function Survivors(n: nat, offsets: set<int>): (ks: seq<int>)
    ensures forall j :: 0 <= j < |ks| ==> 0 <= ks[j] < n && ks[j] !in offsets
    ensures forall i :: 0 <= i < n && i !in offsets ==> i in ks
    ensures forall j, k :: 0 <= j < k < |ks| ==> ks[j] < ks[k]
    ensures |ks| + |set i | i in offsets && 0 <= i < n| == n
  {
    if n == 0 then
      assert (set i | i in offsets && 0 <= i < n) == {};
      []
    else
      var ks := Survivors(n - 1, offsets);
      var below := set i | i in offsets && 0 <= i < n - 1;
      if n - 1 in offsets then
        assert (set i | i in offsets && 0 <= i < n) == below + {n - 1};
        ks
      else
        assert (set i | i in offsets && 0 <= i < n) == below;
        ks + [n - 1]
  }

  /**
    `remove(atOffsets:)`: the elements at the surviving offsets, in order.
    Every offset must be a valid index, as the standard library demands.
  */
  function RemoveOffsets<T>(s: seq<T>, offsets: set<int>): (r: seq<T>)
    requires forall i :: i in offsets ==> 0 <= i < |s|
    ensures |r| == |s| - |offsets|
    ensures var ks := Survivors(|s|, offsets);
      |r| == |ks| && forall j :: 0 <= j < |r| ==> r[j] == s[ks[j]]
  {
    var ks := Survivors(|s|, offsets);
    assert (set i | i in offsets && 0 <= i < |s|) == offsets;
    seq(|ks|, j requires 0 <= j < |ks| => s[ks[j]])
  }
}

=== FILE: settings_store.dfy ===
/**
  The appearance setting (`AppearanceMode`) and the stored settings
  (`SettingsStore`). The appearance is kept as its raw string, so any
  string can be in storage; one that names no mode reads as System.
*/
module Settings {
  import opened Wrappers

  datatype AppearanceMode = System | Light | Dark

  function RawValue(m: AppearanceMode): string {
    match m
    case System => "System"
    case Light => "Light"
    case Dark => "Dark"
  }

  /** `AppearanceMode(rawValue:)`. */
  function FromRawValue(raw: string): Option<AppearanceMode> {
    if raw == "System" then Some(System)
    else if raw == "Light" then Some(Light)
    else if raw == "Dark" then Some(Dark)
    else None
  }

  /** Each mode is read back from its raw value, and from no other string. */
  lemma RawValueRoundTrip(m: AppearanceMode, raw: string)
    ensures FromRawValue(RawValue(m)) == Some(m)
    ensures FromRawValue(raw) == Some(m) <==> raw == RawValue(m)
  {
  }

  datatype ColorScheme = LightScheme | DarkScheme

  /** `colorScheme`: System leaves the choice to the device. */
  function ColorSchemeOf(m: AppearanceMode): (c: Option<ColorScheme>)
    ensures c.None? <==> m == System
    ensures c == Some(LightScheme) <==> m == Light
    ensures c == Some(DarkScheme) <==> m == Dark
  {
    match m
    case System => None
    case Light => Some(LightScheme)
    case Dark => Some(DarkScheme)
  }

  /** The stored settings. */
  datatype SettingsStore = SettingsStore(soundEnabled: bool, appearanceModeRaw: string, showQuotes: bool)

  /** The defaults used when nothing is stored. */
  const Defaults: SettingsStore := SettingsStore(true, RawValue(System), false)

  /** The `appearanceMode` getter: the stored mode, or System when the string names none. */
  function Appearance(s: SettingsStore): (m: AppearanceMode)
    ensures FromRawValue(s.appearanceModeRaw).None? ==> m == System
    ensures FromRawValue(s.appearanceModeRaw).Some? ==> RawValue(m) == s.appearanceModeRaw
  {
    FromRawValue(s.appearanceModeRaw).GetOr(System)
  }

  /**
    The `appearanceMode` setter: stores the raw value, so the getter then
    returns the mode set; the other settings are untouched.
  */
  function SetAppearance(s: SettingsStore, m: AppearanceMode): (r: SettingsStore)
    ensures Appearance(r) == m
    ensures r.soundEnabled == s.soundEnabled && r.showQuotes == s.showQuotes
  {
    RawValueRoundTrip(m, RawValue(m));
    s.(appearanceModeRaw := RawValue(m))
  }

  /** Fresh settings: sound on, quotes off, appearance following the system. */
  lemma DefaultsFacts()
    ensures Defaults.soundEnabled && !Defaults.showQuotes
    ensures Appearance(Defaults) == System && ColorSchemeOf(Appearance(Defaults)).None?
  {
  }
}

=== FILE: timer_activity.dfy ===
/** The live activity's attributes (`TimerActivityAttributes`) and its content state. */
module TimerActivity {
  import opened Wrappers
  import opened Format
  import TimerStates

  /** The content shown on the lock screen; `phase` holds a phase raw value. */
  datatype ContentState = ContentState(
    phase: string,
    timeRemaining: int,
    currentRound: int,
    totalRounds: int,
    isRunning: bool)

  datatype Attributes = Attributes(presetName: string)

  /**
    The countdown as `"M:SS"`: it reads back to the seconds remaining and
    is the same text the app's timer state shows for the same countdown.
  */
  function FormattedTime(cs: ContentState): (text: string)
    ensures cs.timeRemaining >= 0 ==> ParseClock(text) == Some(cs.timeRemaining)
    ensures cs.timeRemaining >= 0 ==> |SplitColons(text)| == 2 && SubFieldsBelow60(text)
    ensures forall st: TimerStates.TimerState :: st.timeRemaining == cs.timeRemaining ==>
      TimerStates.FormattedTime(st) == text
  {
    MinSec(cs.timeRemaining)
  }
}

=== FILE: timer_manager.dfy ===
/**
  The phone's round timer (`TimerManager`). Each operation is a pure
  function from the manager's fields to new fields plus the sound and
  haptic requests it issues, in order. The wall clock is the `now`
  parameter in whole seconds; the repeating one-second timer, the
  background task and the live activity are not modelled, so `Tick` and
  `Sync` are called explicitly.
*/
module TimerManager {
  import opened Wrappers
  import opened TimerStates
  import opened PhaseClock
  import opened Presets

  datatype Impact = Light | Medium | Heavy

  /** A request to the sound manager or to a haptic generator. */
  datatype Cue = CountdownSound | StickPunchSound | BellSound | Haptic(impact: Impact)

  /** The manager's fields: the published ones and the private preset and instants. */
  datatype Engine = Engine(
    state: TimerState,
    totalElapsedTime: int,
    isMuted: bool,
    preset: Option<Preset>,
    phaseEndTime: Option<int>,
    startTime: Option<int>)

  datatype Step = Step(engine: Engine, cues: seq<Cue>)

  /** A freshly created manager. */
  const Fresh: Engine := Engine(Initial, 0, false, None, None, None)

  /** Whole seconds since `start`, or the last value when there was none. */
  function ElapsedAt(e: Engine, now: int): int {
    match e.startTime
    case Some(t) => now - t
    case None => e.totalElapsedTime
  }

  // ---------------------------------------------------------------------------
  // Controls
  // ---------------------------------------------------------------------------

  /**
    `start(with:)`: always enters Prepare in round 1 with the full prepare
    time, even when that is zero, running, with the phase end one prepare
    time from now.
  */
  function Start(e: Engine, p: Preset, now: int): (r: Engine)
    ensures r.state == TimerState(Prepare, 1, p.prepareTime, true)
    ensures r.preset == Some(p) && r.startTime == Some(now) && r.totalElapsedTime == 0
    ensures r.phaseEndTime == Some(now + p.prepareTime) && r.isMuted == e.isMuted
    ensures WellFormed(p.Timing()) ==>
      Valid(p.Timing(), r.state) && Position(p.Timing(), r.state) == 0
      && TransitionsLeft(p.Timing(), r.state) == 2 * p.numberOfRounds
  {
    Engine(TimerState(Prepare, 1, p.prepareTime, true), 0, e.isMuted, Some(p), Some(now + p.prepareTime), Some(now))
  }

  /** `pause()`: stops counting and forgets the phase end; nothing else changes. */
  function Pause(e: Engine): (r: Engine)
    ensures !r.state.isRunning && r.phaseEndTime.None?
    ensures r.(state := e.state, phaseEndTime := e.phaseEndTime) == e
    ensures r.state.(isRunning := e.state.isRunning) == e.state
  {
    e.(state := e.state.(isRunning := false), phaseEndTime := None)
  }

  /**
    `resume()`: ignored in Idle and Finished; otherwise counting again with
    the phase end `timeRemaining` seconds from now.
  */
  function Resume(e: Engine, now: int): (r: Engine)
    ensures !e.state.phase.Counting() ==> r == e
    ensures e.state.phase.Counting() ==>
      r.state.isRunning && r.phaseEndTime == Some(now + e.state.timeRemaining)
    ensures r.state.(isRunning := e.state.isRunning) == e.state
    ensures r.(state := e.state, phaseEndTime := e.phaseEndTime) == e
  {
    if !e.state.phase.Counting() then e
    else e.(state := e.state.(isRunning := true), phaseEndTime := Some(now + e.state.timeRemaining))
  }

  /**
    `stop()`: back to the `TimerState()` defaults from any state, with no
    phase end; the preset, the start instant and the elapsed time are kept.
  */
  function Stop(e: Engine): (r: Engine)
    ensures r.state.phase == Idle && r.state.currentRound == 1
    ensures r.state.timeRemaining == 0 && !r.state.isRunning
    ensures r.phaseEndTime.None?
    ensures r.(state := e.state, phaseEndTime := e.phaseEndTime) == e
  {
    e.(state := Initial, phaseEndTime := None)
  }

  /** `togglePauseResume()`: pauses a running timer, otherwise resumes it. */
  function TogglePauseResume(e: Engine, now: int): (r: Engine)
    ensures e.state.isRunning ==> !r.state.isRunning && r.phaseEndTime.None?
    ensures !e.state.isRunning ==> (r.state.isRunning <==> e.state.phase.Counting())
    ensures r.state.(isRunning := e.state.isRunning) == e.state
  {
    if e.state.isRunning then Pause(e) else Resume(e, now)
  }

  /**
    `restartCurrentRound()`: with a preset, the countdown goes back to the
    current phase's full length (Idle and Finished keep theirs), the phase
    end is recomputed, and a paused timer resumes.
  */
  function RestartCurrentRound(e: Engine, now: int): (r: Engine)
    ensures e.preset.None? ==> r == e
    ensures e.preset.Some? && e.state.phase.Counting() ==>
      var full := Duration(e.preset.value.Timing(), e.state.phase);
      && r.state == e.state.(timeRemaining := full, isRunning := true)
      && r.phaseEndTime == Some(now + full)
    ensures e.preset.Some? && !e.state.phase.Counting() ==>
      r.state == e.state && r.phaseEndTime == Some(now + e.state.timeRemaining)
    ensures r.preset == e.preset && r.startTime == e.startTime && r.isMuted == e.isMuted
    ensures r.totalElapsedTime == e.totalElapsedTime
  {
    match e.preset
    case None => e
    case Some(p) =>
      var remaining :=
        match e.state.phase
        case Prepare => p.prepareTime
        case Round => p.roundTime
        case Rest => p.restTime
        case _ => e.state.timeRemaining;
      var e1 := e.(state := e.state.(timeRemaining := remaining), phaseEndTime := Some(now + remaining));
      if !e1.state.isRunning then Resume(e1, now) else e1
  }

  /**
    `skipPhase()`: with a preset, zero the countdown and take exactly one
    transition. A paused timer stays paused.
  */
  function SkipPhase(e: Engine, now: int): (r: Step)
    ensures e.preset.None? ==> r == Step(e, [])
    ensures e.preset.Some? ==>
      r.engine.state == NextPhase(e.preset.value.Timing(), e.state.(timeRemaining := 0))
    ensures e.preset.Some? && !e.state.phase.Counting() ==>
      r == Step(e.(state := e.state.(timeRemaining := 0)), [])
    ensures r.engine.state.isRunning ==> e.state.isRunning
    ensures (BellSound in r.cues) <==> e.preset.Some? && e.state.phase.Counting() && !e.isMuted
    ensures r.engine.state.phase == Finished && e.state.phase != Finished ==>
      r.engine.phaseEndTime.None? && r.engine.totalElapsedTime == ElapsedAt(e, now)
    ensures e.preset.Some? && r.engine.state.phase.Counting() && e.state.phase.Counting() ==>
      r.engine.phaseEndTime == Some(now + r.engine.state.timeRemaining)
    ensures !(r.engine.state.phase == Finished && e.state.phase != Finished) ==>
      r.engine.totalElapsedTime == e.totalElapsedTime
    ensures r.engine.preset == e.preset && r.engine.startTime == e.startTime && r.engine.isMuted == e.isMuted
  {
    match e.preset
    case None => Step(e, [])
    case Some(p) => Transition(e.(state := e.state.(timeRemaining := 0)), p, now)
  }

  // ---------------------------------------------------------------------------
  // Ticking
  // ---------------------------------------------------------------------------

  /**
    `handleSoundCues()` for the countdown value before it is decremented:
    silent when muted; a countdown at 3, 2 and 1 seconds in Prepare, Round
    and Rest; the stick-punch warning only in a round, at exactly 10. Each
    sound is issued once and followed by its impact: medium in a round,
    light in Prepare and Rest.
  */
  function SoundCues(st: TimerState, muted: bool): (cues: seq<Cue>)
    ensures muted ==> cues == []
    ensures (CountdownSound in cues) <==> !muted && st.phase.Counting() && 1 <= st.timeRemaining <= 3
    ensures (StickPunchSound in cues) <==> !muted && st.phase == Round && st.timeRemaining == 10
    ensures BellSound !in cues
    ensures |cues| == 0 || |cues| == 2
    ensures |cues| == 2 ==>
      && cues[0] in {CountdownSound, StickPunchSound}
      && cues[1] == Haptic(if st.phase == Round then Medium else Light)
  {
    if muted then []
    else
      var countdown := 1 <= st.timeRemaining <= 3;
      match st.phase
      case Prepare => if countdown then [CountdownSound, Haptic(Light)] else []
      case Round =>
        (if st.timeRemaining == 10 then [StickPunchSound, Haptic(Medium)] else [])
        + (if countdown then [CountdownSound, Haptic(Medium)] else [])
      case Rest => if countdown then [CountdownSound, Haptic(Light)] else []
      case _ => []
  }

  /**
    `transitionToNextPhase(preset:)`: the phase clock's step, a bell with a
    heavy haptic unless muted, and a fresh phase end; reaching Finished
    clears the phase end and records the elapsed time instead.
  */
  function Transition(e: Engine, p: Preset, now: int): (r: Step)
    ensures !e.state.phase.Counting() ==> r == Step(e, [])
    ensures r.engine.state == NextPhase(p.Timing(), e.state)
    ensures r.cues == (if e.state.phase.Counting() && !e.isMuted then [BellSound, Haptic(Heavy)] else [])
    ensures r.engine.state.phase == Finished && e.state.phase != Finished ==>
      r.engine.phaseEndTime.None? && r.engine.totalElapsedTime == ElapsedAt(e, now)
    ensures r.engine.state.phase.Counting() && e.state.phase.Counting() ==>
      r.engine.phaseEndTime == Some(now + r.engine.state.timeRemaining)
    ensures !(r.engine.state.phase == Finished && e.state.phase != Finished) ==>
      r.engine.totalElapsedTime == e.totalElapsedTime
    ensures r.engine.preset == e.preset && r.engine.startTime == e.startTime && r.engine.isMuted == e.isMuted
  {
    if !e.state.phase.Counting() then Step(e, [])
    else
      var next := NextPhase(p.Timing(), e.state);
      var bell := if e.isMuted then [] else [BellSound, Haptic(Heavy)];
      if next.phase == Finished then
        Step(e.(state := next, phaseEndTime := None, totalElapsedTime := ElapsedAt(e, now)), bell)
      else
        Step(e.(state := next, phaseEndTime := Some(now + next.timeRemaining)), bell)
  }

  /**
    `tick()`: with a preset, refresh the elapsed time, issue the cues for
    the current countdown value, then count down one second, or take the
    transition when the countdown is already at zero.
  */
  function Tick(e: Engine, now: int): (r: Step)
    ensures e.preset.None? ==> r == Step(e, [])
    ensures e.preset.Some? && e.state.timeRemaining > 0 ==>
      r.engine.state == e.state.(timeRemaining := e.state.timeRemaining - 1)
      && r.engine.phaseEndTime == e.phaseEndTime
    ensures e.preset.Some? && e.state.timeRemaining <= 0 ==>
      r.engine.state == NextPhase(e.preset.value.Timing(), e.state)
    ensures e.preset.Some? && e.startTime.Some? ==> r.engine.totalElapsedTime == now - e.startTime.value
    ensures e.isMuted ==> r.cues == []
    ensures (BellSound in r.cues) <==>
      e.preset.Some? && !e.isMuted && e.state.phase.Counting() && e.state.timeRemaining <= 0
    ensures (CountdownSound in r.cues) <==>
      e.preset.Some? && !e.isMuted && e.state.phase.Counting() && 1 <= e.state.timeRemaining <= 3
    ensures (StickPunchSound in r.cues) <==>
      e.preset.Some? && !e.isMuted && e.state.phase == Round && e.state.timeRemaining == 10
    ensures e.preset.Some? && e.state.timeRemaining > 0 ==> r.cues == SoundCues(e.state, e.isMuted)
    ensures e.preset.Some? && e.state.timeRemaining <= 0 ==>
      r.cues == (if e.state.phase.Counting() && !e.isMuted then [BellSound, Haptic(Heavy)] else [])
    ensures r.engine.preset == e.preset && r.engine.startTime == e.startTime && r.engine.isMuted == e.isMuted
  {
    match e.preset
    case None => Step(e, [])
    case Some(p) =>
      var e1 := e.(totalElapsedTime := ElapsedAt(e, now));
      var cues := SoundCues(e1.state, e1.isMuted);
      if e1.state.timeRemaining > 0 then
        Step(e1.(state := e1.state.(timeRemaining := e1.state.timeRemaining - 1)), cues)
      else
        var t := Transition(e1, p, now);
        Step(t.engine, cues + t.cues)
  }

  // ---------------------------------------------------------------------------
  // Resynchronisation after the app returns to the foreground
  // ---------------------------------------------------------------------------

  /**
    The outcome of the catch-up loop: the state it leaves, one bell per
    transition taken, and whether the loop ran to its end (so the phase end
    is recomputed) or returned from inside (on reaching Finished, or when
    started in Idle), leaving the stored phase end as it was.
  */
  datatype CatchUpResult = CatchUpResult(state: TimerState, bells: seq<Cue>, ranToEnd: bool)

  /**
    `catchUpPhases(missedSeconds:preset:)`: while seconds remain and the
    workout is not finished, end the current phase (one bell, sounded even
    when muted), enter the next at its full length, and let the missed
    seconds consume it. The loop takes exactly as many transitions as it
    rings bells, so it ends within the transitions left to Finished,
    however many seconds were missed.
  */
  function CatchUp(s: Schedule, st: TimerState, missed: int): (r: CatchUpResult)
    ensures |r.bells| + TransitionsLeft(s, r.state) == TransitionsLeft(s, st)
    ensures forall i :: 0 <= i < |r.bells| ==> r.bells[i] == BellSound
    ensures missed <= 0 || st.phase == Finished ==> r == CatchUpResult(st, [], true)
    ensures r.state.phase == Finished && st.phase != Finished ==>
      !r.state.isRunning && r.state.timeRemaining == 0 && !r.ranToEnd
    decreases TransitionsLeft(s, st)
  {
    if missed <= 0 || st.phase == Finished then CatchUpResult(st, [], true)
    else if !st.phase.Counting() then CatchUpResult(st, [], false)
    else
      var next := NextPhase(s, st);
      if next.phase == Finished then CatchUpResult(next.(timeRemaining := 0), [BellSound], false)
      else if missed >= next.timeRemaining then
        var rest := CatchUp(s, next.(timeRemaining := 0), missed - next.timeRemaining);
        CatchUpResult(rest.state, [BellSound] + rest.bells, rest.ranToEnd)
      else
        CatchUpResult(next.(timeRemaining := next.timeRemaining - missed), [BellSound], true)
  }

  /**
    `syncTimeWithRealTime()`: only while running with a stored phase end
    and a preset. If the phase end is still ahead, the countdown becomes the
    seconds left to it; otherwise the seconds since it are caught up, and
    the phase end is recomputed from the resulting countdown when the loop
    ran to its end.
  */
  function Sync(e: Engine, now: int): (r: Step)
    ensures !e.state.isRunning || e.phaseEndTime.None? || e.preset.None? ==> r == Step(e, [])
    ensures e.state.isRunning && e.phaseEndTime.Some? && e.preset.Some? && e.phaseEndTime.value > now ==>
      r == Step(e.(state := e.state.(timeRemaining := e.phaseEndTime.value - now)), [])
    ensures forall i :: 0 <= i < |r.cues| ==> r.cues[i] == BellSound
    ensures e.preset.Some? ==> |r.cues| <= TransitionsLeft(e.preset.value.Timing(), e.state)
    ensures r.engine.preset == e.preset && r.engine.startTime == e.startTime && r.engine.isMuted == e.isMuted
  {
    if !e.state.isRunning || e.phaseEndTime.None? || e.preset.None? then Step(e, [])
    else
      var remaining := e.phaseEndTime.value - now;
      if remaining > 0 then Step(e.(state := e.state.(timeRemaining := remaining)), [])
      else
        var c := CatchUp(e.preset.value.Timing(), e.state, -remaining);
        var phaseEnd := if c.ranToEnd then Some(now + c.state.timeRemaining) else e.phaseEndTime;
        Step(e.(state := c.state, phaseEndTime := phaseEnd), c.bells)
  }

  /**
    `Sync` with the boundary moved: a phase end reached exactly now counts
    as zero seconds left rather than as zero seconds missed, so the stale
    countdown is replaced by 0 and the next tick takes the transition.
  */
  function SyncCorrected(e: Engine, now: int): (r: Step)
    ensures !e.state.isRunning || e.phaseEndTime.None? || e.preset.None? ==> r == Step(e, [])
    ensures e.state.isRunning && e.phaseEndTime.Some? && e.preset.Some? && e.phaseEndTime.value >= now ==>
      r == Step(e.(state := e.state.(timeRemaining := e.phaseEndTime.value - now)), [])
    ensures forall i :: 0 <= i < |r.cues| ==> r.cues[i] == BellSound
    ensures r.engine.preset == e.preset && r.engine.startTime == e.startTime && r.engine.isMuted == e.isMuted
  {
    if !e.state.isRunning || e.phaseEndTime.None? || e.preset.None? then Step(e, [])
    else
      var remaining := e.phaseEndTime.value - now;
      if remaining >= 0 then Step(e.(state := e.state.(timeRemaining := remaining)), [])
      else
        var c := CatchUp(e.preset.value.Timing(), e.state, -remaining);
        var phaseEnd := if c.ranToEnd then Some(now + c.state.timeRemaining) else e.phaseEndTime;
        Step(e.(state := c.state, phaseEndTime := phaseEnd), c.bells)
  }
}

=== FILE: timer_manager_proofs.dfy ===
/**
  Properties of the phone's timer manager that relate several calls: the
  catch-up loop lands where the wall clock says the workout is, the
  manager's fields stay consistent under every control, a phase lasts one
  tick per second of it plus the tick that ends it, and resynchronising is
  idempotent.
*/
module TimerManagerProofs {
  import opened Wrappers
  import opened TimerStates
  import opened PhaseClock
  import opened Presets
  import opened TimerManager

  // ---------------------------------------------------------------------------
  // Catch-up against the timeline
  // ---------------------------------------------------------------------------

  /**
    Catching up `missed` seconds past the end of a counting phase lands on
    the timeline exactly `missed` seconds after that phase end: the workout
    is Finished precisely when that point lies beyond its end, and
    otherwise the loop ran to its end, the state is counting, valid, and
    its position is that point.
  */
  lemma {:induction false} CatchUpLandsOnTimeline(s: Schedule, st: TimerState, missed: int)
    requires WellFormed(s) && Valid(s, st) && st.phase.Counting() && missed > 0
    ensures var r := CatchUp(s, st, missed);
      && Valid(s, r.state)
      && (r.state.phase == Finished <==> PhaseEnd(s, st) + missed > WorkoutEnd(s))
      && (r.state.phase != Finished ==>
            && r.ranToEnd && r.state.phase.Counting() && r.state.isRunning == st.isRunning
            && Position(s, r.state) == PhaseEnd(s, st) + missed)
    decreases TransitionsLeft(s, st)
  {
    var next := NextPhase(s, st);
    NextPhasePreservesValid(s, st);
    NextPhaseContinuesTimeline(s, st);
    if next.phase == Finished {
      assert CatchUp(s, st, missed) == CatchUpResult(next.(timeRemaining := 0), [BellSound], false);
    } else {
      var d := next.timeRemaining;
      PositionWithinWorkout(s, next);
      if missed >= d {
        var rest := CatchUp(s, next.(timeRemaining := 0), missed - d);
        assert CatchUp(s, st, missed) == CatchUpResult(rest.state, [BellSound] + rest.bells, rest.ranToEnd);
        if missed - d > 0 {
          CatchUpLandsOnTimeline(s, next.(timeRemaining := 0), missed - d);
        } else {
          assert rest.state == next.(timeRemaining := 0);
        }
      } else {
        assert CatchUp(s, st, missed) == CatchUpResult(next.(timeRemaining := d - missed), [BellSound], true);
      }
    }
  }

  /**
    However many seconds were missed, the catch-up from a valid state
    takes at most 2 * numberOfRounds transitions, one bell each.
  */
  lemma CatchUpBounded(s: Schedule, st: TimerState, missed: int)
    requires WellFormed(s) && Valid(s, st)
    ensures |CatchUp(s, st, missed).bells| <= 2 * s.numberOfRounds
  {
    TransitionsBounded(s, st);
  }

  /**
    The worked example: three rounds of 3:00 with 1:00 rests after a
    10-second prepare last 670 seconds, so missing 990 seconds from the
    end of Prepare finishes the workout, after six bells.
  */
  lemma CatchUpExample()
    ensures var s := Schedule(10, 180, 60, 3);
      var r := CatchUp(s, TimerState(Prepare, 1, 0, true), 990);
      TotalWorkoutTime(s) == 670 && r.state.phase == Finished && |r.bells| == 6 && !r.state.isRunning
  {
    var s := Schedule(10, 180, 60, 3);
    var st := TimerState(Prepare, 1, 0, true);
    WorkoutEndIsTotal(s);
    CatchUpLandsOnTimeline(s, st, 990);
  }

  // ---------------------------------------------------------------------------
  // The manager's invariant
  // ---------------------------------------------------------------------------

  /**
    The consistency every sequence of controls keeps at wall-clock `now`:
    without a preset the state is the defaults; with one, its timing is
    well formed and the state valid for it; a running timer has a preset
    and a phase end no further ahead than the current phase's length.
  */
  ghost predicate Inv(e: Engine, now: int) {
    && (e.preset.None? ==> e.state == Initial)
    && (e.preset.Some? ==> WellFormed(e.preset.value.Timing()) && Valid(e.preset.value.Timing(), e.state))
    && (e.state.isRunning ==>
          && e.preset.Some? && e.phaseEndTime.Some?
          && e.phaseEndTime.value - now <= Duration(e.preset.value.Timing(), e.state.phase))
  }

  lemma FreshSatisfiesInv(now: int)
    ensures Inv(Fresh, now)
    ensures Fresh.state == Initial && Fresh.preset.None? && !Fresh.isMuted
  {
  }

  /** The invariant survives the clock moving forward. */
  lemma InvLater(e: Engine, now: int, later: int)
    requires Inv(e, now) && now <= later
    ensures Inv(e, later)
  {
  }

  lemma StartKeepsInv(e: Engine, p: Preset, now: int)
    requires WellFormed(p.Timing())
    ensures Inv(Start(e, p, now), now)
  {
  }

  lemma PauseKeepsInv(e: Engine, now: int)
    requires Inv(e, now)
    ensures Inv(Pause(e), now)
  {
  }

  lemma ResumeKeepsInv(e: Engine, now: int)
    requires Inv(e, now)
    ensures Inv(Resume(e, now), now)
  {
    if e.state.phase.Counting() {
      assert e.preset.Some?;
    }
  }

  lemma StopKeepsInv(e: Engine, now: int)
    requires Inv(e, now)
    ensures Inv(Stop(e), now)
  {
  }

  lemma ToggleKeepsInv(e: Engine, now: int)
    requires Inv(e, now)
    ensures Inv(TogglePauseResume(e, now), now)
  {
    ResumeKeepsInv(e, now);
  }

  lemma RestartKeepsInv(e: Engine, now: int)
    requires Inv(e, now)
    ensures Inv(RestartCurrentRound(e, now), now)
  {
  }

  lemma SkipKeepsInv(e: Engine, now: int)
    requires Inv(e, now)
    ensures Inv(SkipPhase(e, now).engine, now)
  {
    if e.preset.Some? {
      NextPhasePreservesValid(e.preset.value.Timing(), e.state.(timeRemaining := 0));
    }
  }

  lemma TickKeepsInv(e: Engine, now: int)
    requires Inv(e, now)
    ensures Inv(Tick(e, now).engine, now)
  {
    if e.preset.Some? {
      NextPhasePreservesValid(e.preset.value.Timing(), e.state);
    }
  }

  lemma SyncKeepsInv(e: Engine, now: int)
    requires Inv(e, now)
    ensures Inv(Sync(e, now).engine, now)
  {
    var r := Sync(e, now).engine;
    if !e.state.isRunning {
      assert r == e;
    } else if e.phaseEndTime.value - now > 0 {
      assert r == e.(state := e.state.(timeRemaining := e.phaseEndTime.value - now));
    } else {
      var s := e.preset.value.Timing();
      var c := CatchUp(s, e.state, now - e.phaseEndTime.value);
      assert r.state == c.state;
      if now - e.phaseEndTime.value > 0 {
        CatchUpLandsOnTimeline(s, e.state, now - e.phaseEndTime.value);
      }
      assert r.state.isRunning ==> r.phaseEndTime == Some(now + r.state.timeRemaining);
    }
  }

  // ---------------------------------------------------------------------------
  // Ticking through a phase
  // ---------------------------------------------------------------------------

  /** `k` timer ticks, one second apart, starting at `now`. */
  function Ticks(e: Engine, now: int, k: nat): Engine
    decreases k
  {
    if k == 0 then e else Ticks(Tick(e, now).engine, now + 1, k - 1)
  }

  /**
    A phase with `t` seconds on the countdown takes `t` ticks to reach
    zero, each taking one second off and leaving the phase alone, and the
    next tick takes the transition; so a phase of nominal length `d`
    spans `d + 1` ticks, and a zero-length rest is still entered for one.
  */
  lemma {:induction false} TicksCountDown(e: Engine, now: int, k: nat)
    requires e.preset.Some? && k <= e.state.timeRemaining
    ensures Ticks(e, now, k).state == e.state.(timeRemaining := e.state.timeRemaining - k)
    ensures Ticks(e, now, k).preset == e.preset
    ensures k == e.state.timeRemaining ==>
      Tick(Ticks(e, now, k), now + k).engine.state == NextPhase(e.preset.value.Timing(), e.state.(timeRemaining := 0))
    decreases k
  {
    if k > 0 {
      TicksCountDown(Tick(e, now).engine, now + 1, k - 1);
    }
  }

  // ---------------------------------------------------------------------------
  // Resynchronisation
  // ---------------------------------------------------------------------------

  /** Whether the stored phase end agrees with the countdown at `now`. */
  predicate InStep(e: Engine, now: int) {
    e.phaseEndTime == Some(now + e.state.timeRemaining)
  }

  /**
    Syncing an engine whose phase end already agrees with its countdown
    changes nothing and rings nothing.
  */
  lemma SyncInStepIsNoop(e: Engine, now: int)
    requires InStep(e, now) && e.state.timeRemaining >= 0
    ensures Sync(e, now) == Step(e, [])
  {
  }

  /**
    Syncing leaves a running engine in step with the clock, or stopped; so
    syncing a second time at the same instant changes nothing.
  */
  lemma SyncIdempotent(e: Engine, now: int)
    requires Inv(e, now)
    ensures var r := Sync(e, now).engine;
      (r.state.isRunning ==> InStep(r, now)) && Sync(r, now) == Step(r, [])
  {
    var r := Sync(e, now).engine;
    if !e.state.isRunning {
      assert r == e;
    } else if e.phaseEndTime.value - now > 0 {
      SyncInStepIsNoop(r, now);
    } else {
      var s := e.preset.value.Timing();
      var missed := now - e.phaseEndTime.value;
      var c := CatchUp(s, e.state, missed);
      assert r.state == c.state;
      if missed > 0 {
        CatchUpLandsOnTimeline(s, e.state, missed);
      }
      if r.state.isRunning {
        assert c.ranToEnd && r.phaseEndTime == Some(now + r.state.timeRemaining);
        SyncInStepIsNoop(r, now);
      }
    }
  }

  // ---------------------------------------------------------------------------
  // The phase-end boundary
  // ---------------------------------------------------------------------------

  /** Seconds into the workout at wall-clock `now`, judged by the stored phase end. */
  function WallPosition(e: Engine, now: int): int
    requires e.preset.Some? && e.phaseEndTime.Some?
  {
    PhaseEnd(e.preset.value.Timing(), e.state) - (e.phaseEndTime.value - now)
  }

  /**
    Resynchronising exactly at the stored phase end, as written: the
    catch-up loop gets zero missed seconds and does nothing, so a countdown
    left stale by a suspended app is kept, the phase end is pushed that
    many seconds later, and the timer's position falls behind the clock.
  */
  lemma SyncAtPhaseEndKeepsStaleCountdown(e: Engine, now: int)
    requires Inv(e, now) && e.state.isRunning && e.phaseEndTime == Some(now) && e.state.timeRemaining > 0
    ensures var r := Sync(e, now).engine;
      && r.state == e.state
      && r.phaseEndTime == Some(now + e.state.timeRemaining)
      && Position(e.preset.value.Timing(), r.state) < WallPosition(e, now)
  {
  }

  /** A concrete case: round 1 of Boxing Standard with 5 stale seconds, synced at its end. */
  lemma SyncAtPhaseEndExample()
    ensures var e := Engine(TimerState(Round, 1, 5, true), 0, false, Some(BoxingStandard), Some(100), Some(0));
      && Inv(e, 100)
      && Sync(e, 100).engine.state.timeRemaining == 5
      && Sync(e, 100).engine.phaseEndTime == Some(105)
      && SyncCorrected(e, 100).engine.state.timeRemaining == 0
  {
    var e := Engine(TimerState(Round, 1, 5, true), 0, false, Some(BoxingStandard), Some(100), Some(0));
    SyncAtPhaseEndKeepsStaleCountdown(e, 100);
  }

  /**
    With the boundary corrected, resynchronising a running timer always
    puts it where the wall clock says the workout is: Finished exactly when
    that lies beyond the end of the workout, and otherwise counting, in
    step with its phase end, at that position.
  */
  lemma SyncCorrectedTracksClock(e: Engine, now: int)
    requires Inv(e, now) && e.state.isRunning
    ensures var s := e.preset.value.Timing();
      var r := SyncCorrected(e, now).engine;
      && Valid(s, r.state)
      && (r.state.phase == Finished <==> WallPosition(e, now) > WorkoutEnd(s))
      && (r.state.phase != Finished ==>
            r.state.phase.Counting() && InStep(r, now) && Position(s, r.state) == WallPosition(e, now))
  {
    var s := e.preset.value.Timing();
    var r := SyncCorrected(e, now).engine;
    if e.phaseEndTime.value - now < 0 {
      var c := CatchUp(s, e.state, now - e.phaseEndTime.value);
      CatchUpLandsOnTimeline(s, e.state, now - e.phaseEndTime.value);
      assert r.state == c.state;
      if c.state.phase != Finished {
        assert r.phaseEndTime == Some(now + c.state.timeRemaining);
      }
    } else {
      var st := e.state.(timeRemaining := e.phaseEndTime.value - now);
      assert r == e.(state := st);
      PositionWithinWorkout(s, e.state);
      assert Valid(s, st);
      assert Position(s, st) == WallPosition(e, now);
    }
  }
}

=== FILE: timer_state.dfy ===
/**
  The phone's timer phase and observable timer state (`TimerPhase`,
  `TimerState`). The watch declares an identical enum with identical raw
  values, so both sides share the `Phase` type defined here.
*/
module TimerStates {
  import opened Wrappers
  import opened Format

  datatype Phase = Idle | Prepare | Round | Rest | Finished {

    /** The three phases that count down towards a transition. */
    predicate Counting() {
      Prepare? || Round? || Rest?
    }
  }

  /** The `String` raw value each case is stored and shared under. */
  function RawValue(p: Phase): string {
    match p
    case Idle => "idle"
    case Prepare => "prepare"
    case Round => "round"
    case Rest => "rest"
    case Finished => "finished"
  }

  /** `TimerPhase(rawValue:)`: the case with that raw value, if any. */
  function FromRawValue(raw: string): Option<Phase> {
    if raw == "idle" then Some(Idle)
    else if raw == "prepare" then Some(Prepare)
    else if raw == "round" then Some(Round)
    else if raw == "rest" then Some(Rest)
    else if raw == "finished" then Some(Finished)
    else None
  }

  /** Decoding a raw value gives back exactly the case that has it. */
  lemma RawValueRoundTrip(p: Phase, raw: string)
    ensures FromRawValue(RawValue(p)) == Some(p)
    ensures FromRawValue(raw) == Some(p) <==> raw == RawValue(p)
  {
  }

  datatype TimerState = TimerState(phase: Phase, currentRound: int, timeRemaining: int, isRunning: bool)

  /** `TimerState()`: the stored defaults. */
  const Initial: TimerState := TimerState(Idle, 1, 0, false)

  /** The phase a phone heading stands for: four fixed words, or `"Round "` and a number. */
  function HeadingPhase(name: string): Option<Phase> {
    if name == "Ready" then Some(Idle)
    else if name == "Get Ready" then Some(Prepare)
    else if name == "Rest" then Some(Rest)
    else if name == "Finished" then Some(Finished)
    else if |name| > 6 && name[..6] == "Round " && ParseInt(name[6..]).Some? then Some(Round)
    else None
  }

  /** The heading shown above the clock. */
  function PhaseDisplayName(st: TimerState): (name: string)
    ensures HeadingPhase(name) == Some(st.phase)
    ensures st.phase == Round <==> |name| > 6 && name[..6] == "Round "
    ensures st.phase == Round ==> ParseInt(name[6..]) == Some(st.currentRound)
  {
    match st.phase
    case Idle => "Ready"
    case Prepare =>
      assert "Get Ready"[..6] != "Round " by {
        assert "Get Ready"[..6][0] == 'G';
      }
      "Get Ready"
    case Round =>
      DecimalRoundTrip(st.currentRound);
      var name := "Round " + Decimal(st.currentRound);
      assert name[6..] == Decimal(st.currentRound);
      name
    case Rest => "Rest"
    case Finished =>
      assert "Finished"[..6] != "Round " by {
        assert "Finished"[..6][0] == 'F';
      }
      "Finished"
  }

  /** Different phases never share a heading, nor do two different rounds. */
  lemma DisplayNameDeterminesPhase(a: TimerState, b: TimerState)
    requires PhaseDisplayName(a) == PhaseDisplayName(b)
    ensures a.phase == b.phase
    ensures a.phase == Round ==> a.currentRound == b.currentRound
  {
    var na := PhaseDisplayName(a);
    if a.phase == Round && b.phase == Round {
      assert na[6..] == PhaseDisplayName(b)[6..];
    } else if a.phase != Round && b.phase != Round {
      assert na[0] == PhaseDisplayName(b)[0];
      assert na[2] == PhaseDisplayName(b)[2];
    }
  }

  /** The countdown as `"M:SS"`. */
  function FormattedTime(st: TimerState): (text: string)
    ensures st.timeRemaining >= 0 ==> ParseClock(text) == Some(st.timeRemaining)
    ensures st.timeRemaining >= 0 ==> |SplitColons(text)| == 2 && SubFieldsBelow60(text)
  {
    MinSec(st.timeRemaining)
  }
}

=== FILE: watch_timer_manager.dfy ===
/**
  The watch's round timer (`WatchTimerManager`). It follows the phone's
  phase clock but keeps no phase end: there is no catch-up, and the only
  feedback is a haptic pattern per event. The wall clock is the `now`
  parameter; the repeating one-second timer is left out, so `Tick` is
  called explicitly.
*/
module WatchTimerManager {
  import opened Wrappers
  import opened TimerStates
  import opened PhaseClock

  /** The watch haptic patterns the manager plays. */
  datatype Haptic = StartHaptic | Click | Notification | Success

  /**
    The manager's fields. Of the watch preset only the four timing fields
    are read, so the preset is its `Schedule`.
  */
  datatype WatchEngine = WatchEngine(
    state: TimerState,
    totalElapsedTime: int,
    preset: Option<Schedule>,
    startTime: Option<int>)

  datatype WatchStep = WatchStep(engine: WatchEngine, haptics: seq<Haptic>)

  /** A freshly created manager. */
  const FreshWatch: WatchEngine := WatchEngine(Initial, 0, None, None)

  /** Whole seconds since `start`, or the last value when there was none. */
  function ElapsedAt(e: WatchEngine, now: int): int {
    match e.startTime
    case Some(t) => now - t
    case None => e.totalElapsedTime
  }

  /** `start(with:)`: Prepare in round 1 at the full prepare time, running, with the start haptic. */
  function Start(e: WatchEngine, p: Schedule, now: int): (r: WatchStep)
    ensures r.engine.state == TimerState(Prepare, 1, p.prepareTime, true)
    ensures r.engine.preset == Some(p) && r.engine.startTime == Some(now) && r.engine.totalElapsedTime == 0
    ensures r.haptics == [StartHaptic]
    ensures WellFormed(p) ==> Valid(p, r.engine.state) && Position(p, r.engine.state) == 0
  {
    WatchStep(WatchEngine(TimerState(Prepare, 1, p.prepareTime, true), 0, Some(p), Some(now)), [StartHaptic])
  }

  /** `pause()`: clears `isRunning`; nothing else changes. */
  function Pause(e: WatchEngine): (r: WatchEngine)
    ensures !r.state.isRunning
    ensures r.(state := e.state) == e && r.state.(isRunning := e.state.isRunning) == e.state
  {
    e.(state := e.state.(isRunning := false))
  }

  /** `resume()`: running again, except in Idle and Finished where it does nothing. */
  function Resume(e: WatchEngine): (r: WatchEngine)
    ensures r.state.isRunning <==> e.state.isRunning || e.state.phase.Counting()
    ensures !e.state.phase.Counting() ==> r == e
    ensures r.(state := e.state) == e && r.state.(isRunning := e.state.isRunning) == e.state
  {
    if !e.state.phase.Counting() then e else e.(state := e.state.(isRunning := true))
  }

  /** `stop()`: back to the `WatchTimerState()` defaults; the preset and elapsed time are kept. */
  function Stop(e: WatchEngine): (r: WatchEngine)
    ensures r.state.phase == Idle && r.state.currentRound == 1
    ensures r.state.timeRemaining == 0 && !r.state.isRunning
    ensures r.(state := e.state) == e
  {
    e.(state := Initial)
  }

  /** `togglePauseResume()`. */
  function TogglePauseResume(e: WatchEngine): (r: WatchEngine)
    ensures e.state.isRunning ==> !r.state.isRunning
    ensures !e.state.isRunning ==> (r.state.isRunning <==> e.state.phase.Counting())
    ensures r.state.(isRunning := e.state.isRunning) == e.state
  {
    if e.state.isRunning then Pause(e) else Resume(e)
  }

  /**
    `handleHaptics()`: a click whenever the countdown reads 1, 2 or 3
    before the decrement, in any phase and with no mute setting.
  */
  function Haptics(st: TimerState): (hs: seq<Haptic>)
    ensures (Click in hs) <==> 1 <= st.timeRemaining <= 3
    ensures forall i :: 0 <= i < |hs| ==> hs[i] == Click
    ensures |hs| <= 1
  {
    if 1 <= st.timeRemaining <= 3 then [Click] else []
  }

  /**
    `transitionToNextPhase(preset:)`: the shared phase clock's step with a
    notification haptic; finishing adds the success haptic and records
    the elapsed time.
  */
  function Transition(e: WatchEngine, p: Schedule, now: int): (r: WatchStep)
    ensures !e.state.phase.Counting() ==> r == WatchStep(e, [])
    ensures r.engine.state == NextPhase(p, e.state)
    ensures r.haptics ==
      (if !e.state.phase.Counting() then []
       else if r.engine.state.phase == Finished then [Notification, Success]
       else [Notification])
    ensures r.engine.state.phase == Finished && e.state.phase != Finished ==>
      r.engine.totalElapsedTime == ElapsedAt(e, now)
    ensures !(r.engine.state.phase == Finished && e.state.phase != Finished) ==>
      r.engine.totalElapsedTime == e.totalElapsedTime
    ensures r.engine.preset == e.preset && r.engine.startTime == e.startTime
  {
    if !e.state.phase.Counting() then WatchStep(e, [])
    else
      var next := NextPhase(p, e.state);
      if next.phase == Finished then
        WatchStep(e.(state := next, totalElapsedTime := ElapsedAt(e, now)), [Notification, Success])
      else
        WatchStep(e.(state := next), [Notification])
  }

  /**
    `skipPhase()`: with a preset, zero the countdown and take one
    transition; unlike the phone, a paused timer then resumes unless the
    workout has just finished.
  */
  function SkipPhase(e: WatchEngine, now: int): (r: WatchStep)
    ensures e.preset.None? ==> r == WatchStep(e, [])
    ensures e.preset.Some? ==>
      r.engine.state.(isRunning := true) == NextPhase(e.preset.value, e.state.(timeRemaining := 0)).(isRunning := true)
    ensures e.preset.Some? && r.engine.state.phase.Counting() ==> r.engine.state.isRunning
    ensures r.engine.state.phase == Finished && e.state.phase != Finished ==> !r.engine.state.isRunning
    ensures e.preset.Some? && !e.state.phase.Counting() ==>
      r == WatchStep(e.(state := e.state.(timeRemaining := 0)), [])
    ensures (Notification in r.haptics) <==> e.preset.Some? && e.state.phase.Counting()
    ensures r.engine.state.phase == Finished && e.state.phase != Finished ==>
      r.engine.totalElapsedTime == ElapsedAt(e, now)
    ensures !(r.engine.state.phase == Finished && e.state.phase != Finished) ==>
      r.engine.totalElapsedTime == e.totalElapsedTime
    ensures r.engine.preset == e.preset && r.engine.startTime == e.startTime
  {
    match e.preset
    case None => WatchStep(e, [])
    case Some(p) =>
      var t := Transition(e.(state := e.state.(timeRemaining := 0)), p, now);
      if !t.engine.state.isRunning && t.engine.state.phase != Finished then
        WatchStep(Resume(t.engine), t.haptics)
      else t
  }

  /**
    `tick()`: with a preset, refresh the elapsed time, click for the last
    three seconds, then count down one second or, at zero, transition.
  */
  function Tick(e: WatchEngine, now: int): (r: WatchStep)
    ensures e.preset.None? ==> r == WatchStep(e, [])
    ensures e.preset.Some? && e.state.timeRemaining > 0 ==>
      r.engine.state == e.state.(timeRemaining := e.state.timeRemaining - 1)
    ensures e.preset.Some? && e.state.timeRemaining <= 0 ==>
      r.engine.state == NextPhase(e.preset.value, e.state)
    ensures e.preset.Some? && e.startTime.Some? ==> r.engine.totalElapsedTime == now - e.startTime.value
    ensures (Click in r.haptics) <==> e.preset.Some? && 1 <= e.state.timeRemaining <= 3
    ensures (Notification in r.haptics) <==>
      e.preset.Some? && e.state.timeRemaining <= 0 && e.state.phase.Counting()
    ensures e.preset.Some? && e.state.timeRemaining > 0 ==> r.haptics == Haptics(e.state)
    ensures e.preset.Some? && e.state.timeRemaining <= 0 ==>
      r.haptics ==
        (if !e.state.phase.Counting() then []
         else if r.engine.state.phase == Finished then [Notification, Success]
         else [Notification])
    ensures r.engine.preset == e.preset && r.engine.startTime == e.startTime
  {
    match e.preset
    case None => WatchStep(e, [])
    case Some(p) =>
      var e1 := e.(totalElapsedTime := ElapsedAt(e, now));
      var hs := Haptics(e1.state);
      if e1.state.timeRemaining > 0 then
        WatchStep(e1.(state := e1.state.(timeRemaining := e1.state.timeRemaining - 1)), hs)
      else
        var t := Transition(e1, p, now);
        WatchStep(t.engine, hs + t.haptics)
  }

  // ---------------------------------------------------------------------------
  // The manager's invariant
  // ---------------------------------------------------------------------------

  /**
    Without a preset the state is the defaults; with one, its timing is
    well formed and the state valid for it; only a timer with a preset runs.
  */
  ghost predicate WatchInv(e: WatchEngine) {
    && (e.preset.None? ==> e.state == Initial)
    && (e.preset.Some? ==> WellFormed(e.preset.value) && Valid(e.preset.value, e.state))
    && (e.state.isRunning ==> e.preset.Some?)
  }

  /** Every control keeps the invariant; a start needs a well-formed preset. */
  lemma WatchControlsKeepInv(e: WatchEngine, p: Schedule, now: int)
    requires WatchInv(e)
    ensures WellFormed(p) ==> WatchInv(Start(e, p, now).engine)
    ensures WatchInv(Pause(e)) && WatchInv(Resume(e)) && WatchInv(Stop(e))
    ensures WatchInv(TogglePauseResume(e))
  {
  }

  lemma WatchSkipKeepsInv(e: WatchEngine, now: int)
    requires WatchInv(e)
    ensures WatchInv(SkipPhase(e, now).engine)
  {
    if e.preset.Some? {
      NextPhasePreservesValid(e.preset.value, e.state.(timeRemaining := 0));
    }
  }

  lemma WatchTickKeepsInv(e: WatchEngine, now: int)
    requires WatchInv(e)
    ensures WatchInv(Tick(e, now).engine)
  {
    if e.preset.Some? {
      NextPhasePreservesValid(e.preset.value, e.state);
    }
  }

  /**
    After a skip the watch is running exactly when the new phase counts
    down: a skip never leaves a paused timer paused, and never runs Idle or
    Finished.
  */
  lemma WatchSkipRunsIffCounting(e: WatchEngine, now: int)
    requires WatchInv(e) && e.preset.Some?
    ensures var r := SkipPhase(e, now).engine;
      r.state.isRunning <==> r.state.phase.Counting()
  {
  }
}

=== FILE: watch_timer_state.dfy ===
/**
  The watch's timer state (`WatchTimerState`). Its fields, defaults and
  phase raw values are the phone's, so it reuses `TimerStates.TimerState`;
  only the headings differ.
*/
module WatchTimerStates {
  import opened Wrappers
  import opened TimerStates
  import opened Format

  /** The heading shown on the watch face. */
  function PhaseDisplayName(st: TimerState): (name: string)
    ensures WatchHeadingPhase(name) == Some(st.phase)
  {
    match st.phase
    case Idle => "Ready"
    case Prepare => "Get Ready"
    case Round => "Fight!"
    case Rest => "Rest"
    case Finished => "Done"
  }

  /** The phase a watch heading stands for. */
  function WatchHeadingPhase(name: string): Option<Phase> {
    if name == "Ready" then Some(Idle)
    else if name == "Get Ready" then Some(Prepare)
    else if name == "Fight!" then Some(Round)
    else if name == "Rest" then Some(Rest)
    else if name == "Done" then Some(Finished)
    else None
  }

  /**
    Each phase has its own heading on the watch; unlike the phone's, the
    round heading does not carry the round number.
  */
  lemma HeadingsIdentifyPhase(a: TimerState, b: TimerState)
    ensures WatchHeadingPhase(PhaseDisplayName(a)) == Some(a.phase)
    ensures PhaseDisplayName(a) == PhaseDisplayName(b) <==> a.phase == b.phase
  {
    assert WatchHeadingPhase(PhaseDisplayName(b)) == Some(b.phase);
  }

  /** The countdown as `"M:SS"`. */
  function FormattedTime(st: TimerState): (text: string)
    ensures st.timeRemaining >= 0 ==> ParseClock(text) == Some(st.timeRemaining)
    ensures st.timeRemaining >= 0 ==> |SplitColons(text)| == 2 && SubFieldsBelow60(text)
  {
    MinSec(st.timeRemaining)
  }
}

=== FILE: watch_views.dfy ===
/** The watch screens' text (`WatchTimerView`, `PresetListView`). */
module WatchViews {
  import opened Wrappers
  import opened Format
  import opened WatchTimerManager

  /** `formattedTotalTime`: the elapsed time as `"H:MM:SS"` from an hour on, else `"M:SS"`. */
  function FormattedTotalTime(e: WatchEngine): (text: string)
    ensures e.totalElapsedTime >= 0 ==> ParseClock(text) == Some(e.totalElapsedTime) && SubFieldsBelow60(text)
    ensures e.totalElapsedTime >= 0 ==> (|SplitColons(text)| == 3 <==> e.totalElapsedTime >= 3600)
  {
    Hms(e.totalElapsedTime)
  }

  /** `formatTime`: `"3m"` for whole minutes, else `"2:30"`. */
  function FormatTime(seconds: int): (text: string)
    ensures seconds >= 0 ==> ParseCompactDuration(text, "m") == Some(seconds)
    ensures seconds >= 0 ==> (EndsWith(text, "m") <==> seconds % 60 == 0)
  {
    CompactDuration(seconds, "m")
  }

  /** Zero seconds is shown as zero whole minutes. */
  lemma FormatTimeZero()
    ensures FormatTime(0) == "0m"
  {
    assert NatDigits(0) == "0";
  }
}

=== FILE: workout_history.dfy ===
/**
  Completed workouts (`WorkoutRecord`) and the history list with its
  statistics (`WorkoutHistoryStore`), as pure operations on a sequence of
  records, newest first.
*/
module WorkoutHistory {
  import opened Wrappers
  import opened Format
  import opened Seqs
  import opened Presets

  /**
    One finished or abandoned workout. The `date` is a timestamp in whole
    seconds; the id is drawn by the caller.
  */
  datatype WorkoutRecord = WorkoutRecord(
    id: Uuid,
    presetName: string,
    date: int,
    totalTime: int,
    roundsCompleted: int,
    totalRounds: int)
  {
    /** `isComplete`: every planned round was completed. */
    predicate IsComplete() {
      roundsCompleted >= totalRounds
    }
  }

  /** `formattedTime`: the duration as `"M:SS"`, the minutes not capped at 59. */
  function RecordFormattedTime(r: WorkoutRecord): (text: string)
    ensures r.totalTime >= 0 ==> ParseClock(text) == Some(r.totalTime)
    ensures r.totalTime >= 0 ==> |SplitColons(text)| == 2 && SubFieldsBelow60(text)
  {
    MinSec(r.totalTime)
  }

  /** `addRecord(_:)`: the new record goes first and the old ones follow in order. */
  function AddRecord(rs: seq<WorkoutRecord>, r: WorkoutRecord): (res: seq<WorkoutRecord>)
    ensures |res| == |rs| + 1 && res[0] == r && res[1..] == rs
  {
    [r] + rs
  }

  /** `clearHistory()`: nothing is left. */
  function ClearHistory(rs: seq<WorkoutRecord>): (res: seq<WorkoutRecord>)
    ensures |res| == 0
  {
    []
  }

  /** Whether a record has the given id. */
  function HasId(id: Uuid): WorkoutRecord -> bool {
    (x: WorkoutRecord) => x.id == id
  }

  /** Whether a record has some other id. */
  function LacksId(id: Uuid): WorkoutRecord -> bool {
    (x: WorkoutRecord) => x.id != id
  }

  /** `deleteRecord(_:)`: every record with that id goes; the rest keep their order. */
  function DeleteRecord(rs: seq<WorkoutRecord>, r: WorkoutRecord): (res: seq<WorkoutRecord>)
    ensures forall i :: 0 <= i < |res| ==> res[i].id != r.id && res[i] in rs
    ensures forall i :: 0 <= i < |rs| && rs[i].id != r.id ==> rs[i] in res
    ensures |res| <= |rs|
  {
    Filter(rs, LacksId(r.id))
  }

  /**
    Deletion is determined record by record: the empty history stays empty,
    a single record stays exactly when its id differs, and deleting from
    two stretches of history is deleting from each in turn. So the
    survivors keep their order and their repetitions.
  */
  lemma DeleteRecordPiecewise(a: seq<WorkoutRecord>, b: seq<WorkoutRecord>, x: WorkoutRecord, r: WorkoutRecord)
    ensures DeleteRecord([], r) == []
    ensures DeleteRecord([x], r) == (if x.id == r.id then [] else [x])
    ensures DeleteRecord(a + b, r) == DeleteRecord(a, r) + DeleteRecord(b, r)
  {
    FilterConcat(a, b, LacksId(r.id));
    assert [x][1..] == [];
  }

  /** Deleting a record that was just added restores the history, given a fresh id. */
  lemma DeleteUndoesAdd(rs: seq<WorkoutRecord>, r: WorkoutRecord)
    requires forall i :: 0 <= i < |rs| ==> rs[i].id != r.id
    ensures DeleteRecord(AddRecord(rs, r), r) == rs
  {
    FilterConcat([r], rs, LacksId(r.id));
    FilterKeepsAll(rs, LacksId(r.id));
    assert Filter([r], LacksId(r.id)) == [];
  }

  /** `totalWorkouts`. */
  function TotalWorkouts(rs: seq<WorkoutRecord>): nat {
    |rs|
  }

  /** `totalTrainingTime`: the durations added up left to right, as `reduce` does. */
  function TotalTrainingTime(rs: seq<WorkoutRecord>): int
    decreases |rs|
  {
    if |rs| == 0 then 0 else TotalTrainingTime(rs[..|rs| - 1]) + rs[|rs| - 1].totalTime
  }

  /** The total over two stretches of history adds up. */
  lemma {:induction false} TotalOfConcat(a: seq<WorkoutRecord>, b: seq<WorkoutRecord>)
    ensures TotalTrainingTime(a + b) == TotalTrainingTime(a) + TotalTrainingTime(b)
    decreases |b|
  {
    if |b| == 0 {
      assert a + b == a;
    } else {
      assert (a + b)[..|a + b| - 1] == a + b[..|b| - 1];
      TotalOfConcat(a, b[..|b| - 1]);
    }
  }

  lemma TotalOfCons(x: WorkoutRecord, rs: seq<WorkoutRecord>)
    ensures TotalTrainingTime([x] + rs) == x.totalTime + TotalTrainingTime(rs)
  {
    TotalOfConcat([x], rs);
    assert [x][..0] == [];
  }

  /** Adding a record adds its duration to the total and one to the count. */
  lemma TotalAfterAdd(rs: seq<WorkoutRecord>, r: WorkoutRecord)
    ensures TotalTrainingTime(AddRecord(rs, r)) == r.totalTime + TotalTrainingTime(rs)
    ensures TotalWorkouts(AddRecord(rs, r)) == TotalWorkouts(rs) + 1
  {
    TotalOfCons(r, rs);
  }

  /**
    Deleting a record takes off exactly the durations of the records with
    its id: those and the survivors together make up the old total.
  */
  lemma {:induction false} TotalAfterDelete(rs: seq<WorkoutRecord>, r: WorkoutRecord)
    ensures TotalTrainingTime(DeleteRecord(rs, r)) + TotalTrainingTime(Filter(rs, HasId(r.id)))
      == TotalTrainingTime(rs)
    decreases |rs|
  {
    if |rs| > 0 {
      var t := rs[1..];
      var kept := Filter(t, LacksId(r.id));
      var dropped := Filter(t, HasId(r.id));
      TotalAfterDelete(t, r);
      assert TotalTrainingTime(rs) == rs[0].totalTime + TotalTrainingTime(t) by {
        assert [rs[0]] + t == rs;
        TotalOfCons(rs[0], t);
      }
      if rs[0].id == r.id {
        assert Filter(rs, LacksId(r.id)) == kept;
        assert Filter(rs, HasId(r.id)) == [rs[0]] + dropped;
        TotalOfCons(rs[0], dropped);
      } else {
        assert Filter(rs, LacksId(r.id)) == [rs[0]] + kept;
        assert Filter(rs, HasId(r.id)) == dropped;
        TotalOfCons(rs[0], kept);
      }
    }
  }

  /** After clearing, no workouts are counted, no time is totalled and `"0m"` is shown. */
  lemma ClearResetsStatistics(rs: seq<WorkoutRecord>)
    ensures TotalWorkouts(ClearHistory(rs)) == 0
    ensures TotalTrainingTime(ClearHistory(rs)) == 0
    ensures FormattedTotalTime(ClearHistory(rs)) == "0m"
  {
    assert NatDigits(0) == "0";
  }

  /** No negative durations, no negative total. */
  lemma {:induction false} TotalNonNegative(rs: seq<WorkoutRecord>)
    requires forall i :: 0 <= i < |rs| ==> rs[i].totalTime >= 0
    ensures TotalTrainingTime(rs) >= 0
    decreases |rs|
  {
    if |rs| > 0 {
      TotalNonNegative(rs[..|rs| - 1]);
    }
  }

  /**
    `formattedTotalTime`: `"Hh Mm"` once the total reaches an hour, else
    `"Mm"`; it reads back to the whole minutes of the total.
  */
  function FormattedTotalTime(rs: seq<WorkoutRecord>): (text: string)
    ensures TotalTrainingTime(rs) >= 0 ==> ParseHoursMinutes(text) == Some(TotalTrainingTime(rs) / 60)
    ensures TotalTrainingTime(rs) >= 0 ==> ('h' in text <==> TotalTrainingTime(rs) >= 3600)
  {
    HoursMinutes(TotalTrainingTime(rs))
  }
}

=== FILE: wrappers.dfy ===
/** The optional value used wherever the Swift code has an optional (`T?`). */
module Wrappers {

  datatype Option<+T> = None | Some(value: T) {

    /** The wrapped value, or `default` when there is none (Swift's `??`). */
    function GetOr(default: T): T {
      match this
      case Some(v) => v
      case None => default
    }
  }
}
